=== FILE: README.md ===
# Coupon allocation ledger — a Dafny model

This project models the server core of a round-robin coupon distribution
app. Guests claim coupons one at a time. Each claim takes the oldest active
unclaimed coupon from the pool. The claim is written to a ledger of
(IP address, device fingerprint, coupon, time) entries, and the coupon is
flagged as claimed by that entry. A device that has claimed within the last
24 hours is refused with 429. Administrators, authenticated by a JWT from a
cookie or a `Bearer` header, can:

- list, create, batch-create, update and delete coupons;
- add random test coupons;
- read the ledger, filtered by IP address or fingerprint;
- read claim statistics.

The database is one immutable value, `Database.Store`. It holds the coupon
pool in insertion order, the claim ledger, and the next free document id.
Every route is a pure function from a store to a response and the next
store; a route that fails returns the store it was given. `Database.Inv` is
the invariant every reachable store keeps:

- document ids are unique;
- coupon codes are unique, trimmed and non-empty;
- a coupon is claimed exactly when its `claimedBy` names a ledger entry for
  it;
- every ledger entry names a claimed coupon, and no coupon has two entries;
- ids are below the counter.

`Database.Extends` says a later store only appended to the ledger and kept
every claimed coupon claimed by the same entry.

Modules:

- `Common`: optional values, JavaScript truthiness, `String.prototype.trim`,
  `startsWith`, decimal rendering.
- `Sequences`: sorting, filtering and `distinct` over sequences.
- `Models`: the `Coupon` and `UserClaim` schemas, with their defaults, the
  `trim` setter, the `required` validators and the pre-save hook.
- `Database`: the store, its invariant, lookups, and the invariant-keeping
  edits.
- `Eligibility`: the 24-hour cooldown middleware `checkPreviousClaims`.
- `Auth`: `authenticateAdmin` and `captureUserInfo`.
- `CouponRoutes`: the claim route and the admin coupon routes.
- `ClaimQueries`: the admin ledger listings and statistics.
- `Ledger`: requests, authentication in front of the admin routes, and runs
  of requests from the empty database.

Three behaviours of the code are kept as written:

- The update route compares the raw request code with the stored one. Its
  duplicate lookup, however, goes through Mongoose's trim. Resubmitting a
  coupon's own code with a leading space is therefore refused as a
  duplicate (`CouponRoutes.PaddedOwnCodeRefused`).
- The update route lets an administrator change any coupon's code, a
  claimed one included (backend/routes/coupons.js:183-189), so a code is
  not fixed once the coupon is created.
- `captureUserInfo` mints a new fingerprint on every request. The cooldown
  therefore never refuses a real request (`Eligibility.FreshFingerprintAllowed`),
  and the unique-browser statistic counts claims rather than devices
  (`ClaimQueries.FreshFingerprintsCountClaims`).

## Model

| member | source | states |
|---|---|---|
| Common.Trim | backend/models/Coupon.js:8 | the trimmed code has no whitespace at either end and is no longer than the input |
| Common.TrimIsInfix | backend/models/Coupon.js:8 | trim keeps an infix of the input, and everything it drops before and after is whitespace |
| Common.TrimIdempotent | backend/models/Coupon.js:8 | trimming a trimmed code changes nothing, so a stored code is a fixed point of the setter |
| Common.DecimalString | backend/routes/coupons.js:240 | the rendering is a non-empty string of decimal digits without a leading zero whose value is the number |
| Common.TrimDropsPadding | backend/models/Coupon.js:8 | a leading space in front of a stored code is removed by the setter, giving back the stored code |
| Models.NewCoupon | backend/models/Coupon.js:3-35 | a new coupon has the trimmed code and is unclaimed with no claimant; `isActive` defaults to true; both timestamps are the creation time |
| Models.NewUserClaim | backend/models/UserClaim.js:3-21 | a new ledger entry carries the request's IP, fingerprint and coupon; `claimedAt` defaults to the creation time |
| Models.Saved | backend/models/Coupon.js:37-41 | a save stamps `updatedAt` with the current time and leaves every other field as it was |
| Database.FindCoupon | backend/routes/coupons.js:177-180 | `findById` finds nothing exactly when no coupon has the id; otherwise it returns a position holding that id |
| Database.FindClaim | backend/routes/coupons.js:79-80 | looking up the claimant finds nothing exactly when no entry has the id; otherwise it returns a position holding that id |
| Database.EntriesFor | backend/models/UserClaim.js:12-16 | the entries whose `coupon` reference is the given coupon: each such ledger entry as often as it is in the ledger, and nothing else |
| Database.EntriesForAtMostOne | backend/routes/coupons.js:16-48 | while no coupon has two entries, a coupon has at most one entry, and exactly one if any entry references it |
| Database.ClaimedIffExactlyOneEntry | backend/routes/coupons.js:37-48 | in a consistent store a coupon is claimed exactly when exactly one ledger entry references it; an unclaimed coupon has none |
| Database.UnclaimedHasNoEntry | backend/routes/coupons.js:37-48 | in a consistent store no ledger entry references an unclaimed coupon |
| Database.AppendCouponsPreservesInv | backend/routes/coupons.js:159 | appending valid, trimmed coupons with fresh ids and codes keeps the store consistent, and the ledger and all claims stay as they were |
| Database.ReplaceCouponPreservesInv | backend/routes/coupons.js:195 | replacing a coupon by a valid one with the same id and claim fields, and a code no other coupon has, keeps the store consistent and the claims intact |
| Database.RemoveAt | backend/routes/coupons.js:221 | removing position k keeps the coupons before k and shifts the ones after it down by one |
| Database.RemoveUnclaimedPreservesInv | backend/routes/coupons.js:216-221 | removing an unclaimed coupon keeps the store consistent, and every claimed coupon stays claimed |
| Database.MarkClaimed | backend/routes/coupons.js:45-48 | the claimed coupon is flagged, points at the new entry, and is re-stamped; code, description, activity and creation time stay the same |
| Database.RecordClaimPreservesInv | backend/routes/coupons.js:37-48 | appending a valid entry for an unclaimed coupon and flagging that coupon keeps the store consistent and only extends it |
| Eligibility.FindRecent | backend/middleware/rateLimiter.js:72-75 | finds nothing exactly when no entry of this fingerprint is within the cooldown; otherwise returns the first such entry |
| Eligibility.CheckPreviousClaims | backend/middleware/rateLimiter.js:63-84 | refuses exactly when the ledger has an entry of this fingerprint claimed at or after `now` minus 24 h; the retry time is that entry's time plus 24 h, never earlier than `now` |
| Eligibility.CooldownBoundary | backend/middleware/rateLimiter.js:69-75 | the cut-off is inclusive: an entry exactly 24 h old still refuses, and an older one does not |
| Eligibility.IpAddressIgnored | backend/middleware/rateLimiter.js:67-75 | the verdict depends only on fingerprints and times; two ledgers that differ only in IP addresses get the same verdict |
| Eligibility.FindRecentIgnoresIp | backend/middleware/rateLimiter.js:72-75 | the entry found depends only on fingerprints and times |
| Eligibility.OtherDevicesIgnored | backend/middleware/rateLimiter.js:72-75 | entries of other fingerprints never change whether a device is refused |
| Eligibility.FreshFingerprintAllowed | backend/middleware/rateLimiter.js:72-84 | a fingerprint that appears nowhere in the ledger is always let through |
| Auth.ExtractToken | backend/middleware/auth.js:6-14 | a truthy cookie is the token; otherwise the token is the rest of an authorization header that starts with `Bearer `, and there is none when that rest is empty |
| Auth.BearerRoundTrip | backend/middleware/auth.js:9-14 | with no cookie, the header `Bearer t` yields exactly `t` |
| Auth.AuthenticateAdmin | backend/middleware/auth.js:4-27 | "Authentication required" exactly when there is no token; "Invalid token" exactly when the verifier rejects the token; otherwise admits the id the verifier decoded from that token |
| Auth.FirstTruthy | backend/middleware/auth.js:32-35 | the result is truthy exactly when some source is; it is the first truthy source, or the last source when none is truthy |
| Auth.CaptureUserInfo | backend/middleware/auth.js:30-50 | the IP comes from the first truthy source of the fallback chain; the fingerprint is the decimal time, a dash, and then exactly the random part |
| CouponRoutes.NextCoupon | backend/routes/coupons.js:16-19 | finds nothing exactly when no coupon is active and unclaimed; otherwise returns an available coupon created no later than any other available one |
| CouponRoutes.ClaimCoupon | backend/routes/coupons.js:14-61 | 404 with total and claimed counts exactly when nothing is available; 500 exactly when something is available but the entry fails validation (no IP or no fingerprint); a grant hands out the oldest available coupon, appends one entry under the next id and flags that coupon, and nothing else changes; a refusal changes nothing |
| CouponRoutes.ClaimRoute | backend/routes/coupons.js:13 | 429 exactly when the cooldown check refuses, with its retry time and the store unchanged; otherwise the claim handler decides |
| CouponRoutes.ClaimPreservesInv | backend/routes/coupons.js:36-48 | a claim keeps the store consistent and only extends it; a grant adds exactly one ledger entry |
| CouponRoutes.ClaimsFollowCreationOrder | backend/routes/coupons.js:15-19 | two consecutive grants hand out two different coupons, and the second was created no earlier than the first |
| CouponRoutes.RepeatClaimRefused | backend/middleware/rateLimiter.js:69-81 | after a grant, the same fingerprint is refused throughout the next 24 h, and told the grant time plus 24 h |
| CouponRoutes.GrantedClaimIsLast | backend/routes/coupons.js:37-43 | after a grant the ledger is the old ledger plus one entry, stamped with the claim time and the claimant's fingerprint |
| CouponRoutes.ClaimAllowedAfterCooldown | backend/middleware/rateLimiter.js:69-84 | once more than 24 h have passed since a grant, the same fingerprint is no longer refused |
| CouponRoutes.NewCoupons | backend/routes/coupons.js:159 | one new document per input item, in order, with consecutive ids from the counter |
| CouponRoutes.InsertableIff | backend/models/Coupon.js:4-13 | the new documents pass validation and the unique index exactly when every trimmed code and every description is non-empty and the trimmed codes are unstored and pairwise different |
| CouponRoutes.InsertMany | backend/routes/coupons.js:159 | the insert succeeds exactly when every trimmed code and description is non-empty and the trimmed codes are unstored and pairwise different; a successful insert stores exactly the new documents built from the items |
| CouponRoutes.InsertManyPreservesInv | backend/routes/coupons.js:159 | a successful insert keeps the store consistent and only extends it |
| CouponRoutes.CreateCoupon | backend/routes/coupons.js:94-121 | 400 "Coupon code already exists" exactly when the trimmed code is stored; created exactly when the code is new and the trimmed code and description are non-empty, appending the new coupon under the next id; 500 exactly when the code is new but the trimmed code or the description is empty; any other outcome changes nothing |
| CouponRoutes.CreatePreservesInv | backend/routes/coupons.js:111 | creating a coupon keeps the store consistent and only extends it |
| CouponRoutes.CreateTwiceRefused | backend/routes/coupons.js:98-102 | after a coupon is created, creating another with the same trimmed code is refused as a duplicate |
| CouponRoutes.Dedup | backend/routes/coupons.js:132-145 | the de-duplicated list is no longer than the request |
| CouponRoutes.DedupSound | backend/routes/coupons.js:136-144 | the kept items have pairwise different raw codes, and each is the first item in the request with its code |
| CouponRoutes.DedupComplete | backend/routes/coupons.js:136-144 | the first item of every raw code in the request is kept |
| CouponRoutes.DedupKeepsEveryCode | backend/routes/coupons.js:136-144 | every raw code of the request is the code of some kept item |
| CouponRoutes.FilterKeepsDistinctCodes | backend/routes/coupons.js:152 | filtering a list of pairwise different codes keeps them pairwise different |
| CouponRoutes.NewItemOrigin | backend/routes/coupons.js:147-152 | every item left to insert is the first in the request with its code, and its raw code is not stored |
| CouponRoutes.NewItemFor | backend/routes/coupons.js:147-152 | every request item whose raw code is not stored has its code among the items left to insert |
| CouponRoutes.NewItemsEmptyIff | backend/routes/coupons.js:152-156 | nothing is left to insert exactly when every raw code of the request is already stored |
| CouponRoutes.NewItemsDistinct | backend/routes/coupons.js:132-152 | the items left to insert have pairwise different raw codes |
| CouponRoutes.BatchCreate | backend/routes/coupons.js:124-169 | 400 "Invalid coupons data" exactly when the list is missing or empty; 400 "All coupon codes already exist" exactly when every raw code is stored; created exactly when some first-of-its-code item has an unstored raw code and the documents built from those items validate and keep the unique index, 500 otherwise; on success 1 to n coupons are appended under consecutive ids, and `duplicatesSkipped` is the request size minus the inserted count; a failure changes nothing |
| CouponRoutes.LaterInvalidCopySkipped | backend/routes/coupons.js:136-159 | in a batch of a new code followed by a copy of it with an empty description, only the first item is validated: one coupon is created and one item is reported as skipped |
| CouponRoutes.BatchStored | backend/routes/coupons.js:152-159 | a successful batch appends exactly the documents built from the first item of each raw code not yet stored, in request order |
| CouponRoutes.BatchInsertedFrom | backend/routes/coupons.js:152-159 | every coupon a batch appends was built from a first-of-its-code request item whose raw code was not stored |
| CouponRoutes.BatchStoresEveryNewCode | backend/routes/coupons.js:147-159 | after a successful batch, the trimmed form of every previously unstored code is in the pool |
| CouponRoutes.BatchPreservesInv | backend/routes/coupons.js:159 | a batch keeps the store consistent and only extends it |
| CouponRoutes.BatchOfCleanItemsSucceeds | backend/routes/coupons.js:132-164 | a batch of trimmed, non-empty items with at least one new code succeeds, and inserts one coupon per distinct new code |
| CouponRoutes.CleanItemsInsertable | backend/routes/coupons.js:159 | the documents built from clean new items pass validation and the unique index |
| CouponRoutes.NewItemsCount | backend/routes/coupons.js:132-152 | the number of items left to insert is the number of distinct raw codes that are not stored |
| CouponRoutes.BatchTwiceRefused | backend/routes/coupons.js:147-156 | repeating a successful clean batch is refused with "All coupon codes already exist" and changes nothing |
| CouponRoutes.UpdateCoupon | backend/routes/coupons.js:172-205 | 404 exactly for an unknown id; 400 exactly when a truthy code differs from the stored one and its trimmed form is stored; success exactly when neither applies and the resulting code and description are non-empty, and 500 otherwise; on success only that coupon changes, its code is the trimmed new code when a truthy different code was given and the old one otherwise, given fields replace the old ones, absent fields keep them, the claim fields are untouched and `updatedAt` is now; a failure changes nothing |
| CouponRoutes.UpdatePreservesInv | backend/routes/coupons.js:183-195 | an update keeps the store consistent and only extends it; a claimed coupon stays claimed by the same entry |
| CouponRoutes.PaddedOwnCodeRefused | backend/routes/coupons.js:183-189 | resubmitting a coupon's own code with a leading space is refused with "Coupon code already exists" |
| CouponRoutes.DeleteCoupon | backend/routes/coupons.js:208-228 | 404 exactly for an unknown id; 400 "Cannot delete a claimed coupon" exactly when that coupon is claimed; deleted exactly when the coupon is found and unclaimed, and then exactly that coupon leaves the pool; a refusal changes nothing |
| CouponRoutes.DeletePreservesInv | backend/routes/coupons.js:216-221 | a delete keeps the store consistent and never removes a claimed coupon |
| CouponRoutes.DeletedIsGone | backend/routes/coupons.js:221 | after a delete no coupon with that id remains |
| CouponRoutes.ListCoupons | backend/routes/coupons.js:68 | the listing is a permutation of the pool, newest first |
| CouponRoutes.CouponDetails | backend/routes/coupons.js:77-91 | 404 exactly for an unknown id; otherwise the coupon with that id, together with the ledger entry its `claimedBy` names, which is shown exactly when `claimedBy` is set and some ledger entry has that id |
| CouponRoutes.DetailsShowClaim | backend/routes/coupons.js:79-80 | in a consistent store the details of a claimed coupon show its ledger entry, and that entry references the coupon |
| CouponRoutes.TestCount | backend/routes/coupons.js:233-236 | a missing count means 5; a negative count means no iterations; any other count is the number of coupons |
| CouponRoutes.TestFields | backend/routes/coupons.js:236-244 | one test item per iteration |
| CouponRoutes.TrimKeepsTestPrefix | backend/routes/coupons.js:237 | a code starting with `TEST-` still starts with it after the trim setter |
| CouponRoutes.TestInsertSucceeds | backend/routes/coupons.js:236-246 | the test documents always validate, so their insert succeeds exactly when the trimmed `TEST-` codes are unstored and pairwise different |
| CouponRoutes.AddTestCoupons | backend/routes/coupons.js:231-256 | succeeds exactly when the trimmed `TEST-` codes are unstored and pairwise different; on success the count's number of coupons is appended: active, unclaimed, codes starting with `TEST-` and not previously stored, described as "Test coupon i+1", with consecutive ids; on a code collision nothing is stored |
| CouponRoutes.TestCouponsPreserveInv | backend/routes/coupons.js:246 | adding test coupons keeps the store consistent and only extends it |
| ClaimQueries.ListClaims | backend/routes/userClaims.js:10-16 | the listing is a permutation of the ledger, newest first |
| ClaimQueries.ClaimsByIp | backend/routes/userClaims.js:24-30 | the listing holds every entry with exactly this IP, as often as it is in the ledger, and nothing else, newest first |
| ClaimQueries.ClaimsByFingerprint | backend/routes/userClaims.js:38-44 | the listing holds every entry with exactly this fingerprint, as often as it is in the ledger, and nothing else, newest first |
| ClaimQueries.EntryListedUnderItsKeys | backend/routes/userClaims.js:24-42 | every ledger entry appears in the listing of its own IP and in that of its own fingerprint |
| ClaimQueries.PopulateCoupon | backend/routes/userClaims.js:13 | the populated coupon is missing exactly when no coupon has the referenced id; otherwise it is the coupon with that id |
| ClaimQueries.PopulatedCouponIsClaimedByEntry | backend/routes/userClaims.js:12-14 | in a consistent store every entry's populated coupon exists, is claimed, and is claimed by exactly that entry |
| ClaimQueries.ClaimedSince | backend/routes/userClaims.js:57-66 | the entries counted for a cut-off are every entry claimed at or after it, as often as it is in the ledger, and nothing else |
| ClaimQueries.DistinctIpsAreValues | backend/routes/userClaims.js:69 | the distinct IP addresses are exactly the addresses the entries carry |
| ClaimQueries.DistinctFingerprintsAreValues | backend/routes/userClaims.js:72 | the distinct fingerprints are exactly the fingerprints the entries carry |
| ClaimQueries.ClaimedSinceAppend | backend/routes/userClaims.js:57-66 | an entry at or after the cut-off adds itself to the counted entries, and the earlier ones stay counted |
| ClaimQueries.Stats | backend/routes/userClaims.js:52-80 | the total is the ledger size; the 24-hour and 7-day counts are the numbers of entries claimed at or after `now` minus 24 hours and minus 7 days; the unique counts are the numbers of different IP addresses and fingerprints among the entries; the 24-hour count is at most the 7-day count, which is at most the total; unique counts are at most the total and at least 1 when there are claims |
| ClaimQueries.DayWindowIsCooldown | backend/routes/userClaims.js:57-60 | an entry is in the 24-hour count exactly when it would still refuse its own device under the cooldown |
| ClaimQueries.NewEntryCounted | backend/routes/userClaims.js:54-66 | a claim recorded now adds one to the total, to the 24-hour count and to the 7-day count |
| ClaimQueries.FreshFingerprintsCountClaims | backend/routes/userClaims.js:72-79 | when no fingerprint repeats, the unique-browser count equals the total number of claims |
| Ledger.Handle | backend/middleware/auth.js:4-27 | an admin request is refused with 401 exactly when the authenticator does not admit it, with the store unchanged; the message is "Authentication required" exactly when no token was found; an admitted request runs its route, and a claim request runs the claim route, with that route's response and state |
| Ledger.HandlePreservesInv | backend/routes/coupons.js:13-256 | every request, claim or admin, keeps the store consistent and only extends it |
| Ledger.RunPreservesInv | backend/routes/coupons.js:13-256 | any sequence of requests keeps the store consistent; the ledger only grows at its end and claimed coupons stay claimed by the same entry |
| Ledger.ReachableInv | backend/routes/coupons.js:16-48 | from the empty database, no two ledger entries ever reference the same coupon and codes stay unique |
| Ledger.RunAppendsToLedger | backend/routes/coupons.js:37-43 | running more requests never rewrites the ledger: the earlier ledger is a prefix of the later one |
| Ledger.RefusedRunChangesNothing | backend/middleware/auth.js:16-26 | a run of admin requests the authenticator refuses leaves the store exactly as it was |

## Left out

- `claimRateLimiter` (backend/middleware/rateLimiter.js:54-60) is not modelled. It is express-rate-limit's in-memory counter of three requests per IP per minute, kept outside the database.
- Concurrency is not modelled; requests run one after another. The source reads the next coupon and then saves it in separate steps. Two concurrent claims could therefore take the same coupon, so `Ledger.ReachableInv` holds only for sequential execution.
- The claim route saves the ledger entry before the coupon. The model treats the two saves as one step, so a failure between them, which would leave an entry for an unclaimed coupon, is not modelled.
- Database failures and malformed ids are not modelled. Both end in the routes' 500 catch-all. Ids are natural numbers, so an unknown id is 404 and never a cast error.
- `CouponRoutes.InsertMany`, `CouponRoutes.BatchCreate` and `CouponRoutes.AddTestCoupons`: the model's `insertMany` is all-or-nothing. An ordered `insertMany` that hits a duplicate key part-way keeps the documents before it. A batch `[B, " A"]` with `A` stored, for example, stores `B` and then answers 500. The model stores nothing in that case and answers 500, so the statement that a failed batch or test-coupon request changes nothing holds only for the model.
- `Date.now()`, `Math.random()` and `jwt.verify` are parameters: the time `now`, the random fingerprint part, the test-code suffixes, and the `verify` function. The shape of the random test-code suffix (eight upper-case base-36 characters) is not constrained.
- Request bodies with non-string codes or descriptions are not modelled. An absent code or description is the empty string, which fails the `required` validator just as `undefined` does. `count` is an integer or absent.
- The login route (backend/routes/auth.js), the server set-up (backend/server.js, including its global API limiter) and backend/setup.js are not part of this model.
- Every request reads the clock once, and that one `now` is used throughout. The source calls `Date.now()` separately at each use. In the claim route those uses are the cooldown cut-off (backend/middleware/rateLimiter.js:70), the `claimedAt` default (backend/models/UserClaim.js:19) and the pre-save hook's `updatedAt`. `Models.NewCoupon` stamps `createdAt` and `updatedAt` from one reading; the source has two defaults and the hook. `ClaimQueries.Stats` uses one `now` for both windows.
- `ClaimQueries.ListClaims`, `ClaimsByIp` and `ClaimsByFingerprint` return the entries, with population given separately by `ClaimQueries.PopulateCoupon`. The order of entries with equal times is not stated, since MongoDB does not fix it either. The same holds for `CouponRoutes.ListCoupons`.
- `Eligibility.CheckPreviousClaims`: when several entries are recent, `findOne` may return any of them. The contract promises the retry time of some recent entry, and the model takes the first in ledger order.
- `CouponRoutes.NextCoupon`: among available coupons created at the same millisecond, `findOne` with a `createdAt` sort may return any of them. The model takes the one stored first; that tie-break is a modelling choice, not a promise of the source.
- `Auth.CaptureUserInfo`: the fourth fallback `req.connection.socket.remoteAddress` (backend/middleware/auth.js:35) is modelled as an ordinary value. A Node socket has no `socket` property, so when the first three sources are all falsy the middleware would throw instead, and Express would answer 500.
- Success messages such as "N coupons created successfully" are not modelled; the counts they are built from are part of the responses.
- `CouponRoutes.Dedup`: its own contract only bounds the length. What it keeps is stated by `CouponRoutes.DedupSound` and `CouponRoutes.DedupComplete`.
- `CouponRoutes.TestFields`: its own contract only gives the length. The codes, descriptions and flags of the stored test coupons are stated by `CouponRoutes.AddTestCoupons`.

=== FILE: auth.dfy ===
/** The two request middlewares: `authenticateAdmin`, which finds the admin
    token (cookie first, then a `Bearer ` authorization header) and hands it
    to the token verifier, and `captureUserInfo`, which picks the client IP
    from a fallback chain and mints a device fingerprint. The JWT verifier
    and the random source are parameters. */
module Auth {
  import opened Common

  /** The bearer scheme prefix; the token is what follows it. */
  const BearerPrefix: string := "Bearer "

  /** The outcome of `authenticateAdmin`: 401 with one of two messages, or
      the request proceeds with the admin id the verifier decoded. */
  datatype AuthOutcome = AuthenticationRequired | InvalidToken | Admitted(adminId: Id)

  /** The token `authenticateAdmin` would verify: the `adminToken` cookie if
      it is truthy, otherwise the rest of an authorization header that starts
      with `Bearer `; `None` when neither yields a non-empty token. */
  function ExtractToken(cookie: Option<string>, authorization: Option<string>): (r: Option<string>)
    ensures Truthy(cookie) ==> r == cookie
    ensures !Truthy(cookie) ==>
      (r.Some? <==> Truthy(authorization) && StartsWith(authorization.value, BearerPrefix)
                    && |authorization.value| > |BearerPrefix|)
    ensures !Truthy(cookie) && r.Some? ==> authorization == Some(BearerPrefix + r.value)
    ensures r.Some? ==> r.value != ""
  {
    if Truthy(cookie) then cookie
    else if Truthy(authorization) && StartsWith(authorization.value, BearerPrefix) then
      var token := authorization.value[|BearerPrefix|..];
      assert authorization.value == BearerPrefix + token;
      if token != "" then Some(token) else None
    else None
  }

  /** A header `Bearer <t>` yields `<t>` when no cookie is set. */
  lemma BearerRoundTrip(token: string)
    requires token != ""
    ensures ExtractToken(None, Some(BearerPrefix + token)) == Some(token)
  {
    assert (BearerPrefix + token)[..|BearerPrefix|] == BearerPrefix;
    assert (BearerPrefix + token)[|BearerPrefix|..] == token;
  }

  /** A set cookie wins over any header. */
  lemma CookieTakesPrecedence(cookie: string, authorization: Option<string>)
    requires cookie != ""
    ensures ExtractToken(Some(cookie), authorization) == Some(cookie)
  {
  }

  /** `authenticateAdmin` with the JWT verifier as a parameter: no token is
      "Authentication required", a token the verifier rejects is "Invalid
      token", an accepted one admits the decoded admin id. */
  function AuthenticateAdmin(cookie: Option<string>, authorization: Option<string>,
                             verify: string -> Option<Id>): (r: AuthOutcome)
    ensures r == AuthenticationRequired <==> ExtractToken(cookie, authorization).None?
    ensures r == InvalidToken <==>
      ExtractToken(cookie, authorization).Some? && verify(ExtractToken(cookie, authorization).value).None?
    ensures r.Admitted? ==> exists t :: ExtractToken(cookie, authorization) == Some(t) && verify(t) == Some(r.adminId)
  {
    match ExtractToken(cookie, authorization)
    case None => AuthenticationRequired
    case Some(token) =>
      match verify(token)
      case None => InvalidToken
      case Some(id) => Admitted(id)
  }

  /** `a || b || c || d` over optional strings: the first truthy operand,
      or the last operand when none is truthy. */
  function FirstTruthy(a: Option<string>, b: Option<string>, c: Option<string>, d: Option<string>): (r: Option<string>)
    ensures Truthy(r) <==> Truthy(a) || Truthy(b) || Truthy(c) || Truthy(d)
    ensures Truthy(a) ==> r == a
    ensures !Truthy(a) && Truthy(b) ==> r == b
    ensures !Truthy(a) && !Truthy(b) && Truthy(c) ==> r == c
    ensures !Truthy(a) && !Truthy(b) && !Truthy(c) ==> r == d
  {
    if Truthy(a) then a else if Truthy(b) then b else if Truthy(c) then c else d
  }

  /** What `captureUserInfo` attaches to the request. `ipAddress` may be
      missing or empty when every source is. */
  datatype UserInfo = UserInfo(ipAddress: Option<string>, browserFingerprint: string)

  /** `captureUserInfo`: the IP is the first truthy of `x-forwarded-for`,
      `connection.remoteAddress`, `socket.remoteAddress` and
      `connection.socket.remoteAddress`; the fingerprint is
      `<now>-<randomValue>`, freshly minted on every request. */
  function CaptureUserInfo(forwardedFor: Option<string>, connectionRemote: Option<string>,
                           socketRemote: Option<string>, connectionSocketRemote: Option<string>,
                           now: Time, randomValue: string): (u: UserInfo)
    ensures u.ipAddress == FirstTruthy(forwardedFor, connectionRemote, socketRemote, connectionSocketRemote)
    ensures StartsWith(u.browserFingerprint, DecimalString(now) + "-")
    ensures |u.browserFingerprint| == |DecimalString(now)| + 1 + |randomValue|
    ensures u.browserFingerprint[|DecimalString(now)| + 1..] == randomValue
  {
    var prefix := DecimalString(now) + "-";
    assert (prefix + randomValue)[|prefix|..] == randomValue;
    UserInfo(FirstTruthy(forwardedFor, connectionRemote, socketRemote, connectionSocketRemote),
             prefix + randomValue)
  }
}

=== FILE: claims.dfy ===
/** The admin's read-only views of the claim ledger: the whole ledger, the
    entries of one IP address or one device fingerprint (each newest first,
    with the claimed coupon populated), and the summary statistics. */
module ClaimQueries {
  import opened Common
  import opened Models
  import opened Sequences
  import opened Database
  import Eligibility

  /** `.sort({ claimedAt: -1 })`: newest first. */
  function Newest(ls: seq<UserClaim>): (r: seq<UserClaim>)
    ensures multiset(r) == multiset(ls)
    ensures forall i, j | 0 <= i < j < |r| :: r[i].claimedAt >= r[j].claimedAt
  {
    SortDesc(ls, (e: UserClaim) => e.claimedAt)
  }

  /** `GET /api/claims`: every ledger entry, newest first. */
  function ListClaims(s: Store): (r: seq<UserClaim>)
    ensures multiset(r) == multiset(s.claims)
    ensures forall i, j | 0 <= i < j < |r| :: r[i].claimedAt >= r[j].claimedAt
  {
    Newest(s.claims)
  }

  /** `GET /api/claims/ip/:ipAddress`: the entries recorded for exactly
      this IP address, each as often as in the ledger, newest first. */
  function ClaimsByIp(s: Store, ip: string): (r: seq<UserClaim>)
    ensures forall e :: multiset(r)[e] == if e.ipAddress == ip then multiset(s.claims)[e] else 0
    ensures forall i, j | 0 <= i < j < |r| :: r[i].claimedAt >= r[j].claimedAt
  {
    FilterCounts(s.claims, (e: UserClaim) => e.ipAddress == ip);
    Newest(Filter(s.claims, (e: UserClaim) => e.ipAddress == ip))
  }

  /** `GET /api/claims/browser/:fingerprint`: the entries recorded for
      exactly this device fingerprint, newest first. */
  function ClaimsByFingerprint(s: Store, fingerprint: string): (r: seq<UserClaim>)
    ensures forall e :: multiset(r)[e] == if e.browserFingerprint == fingerprint then multiset(s.claims)[e] else 0
    ensures forall i, j | 0 <= i < j < |r| :: r[i].claimedAt >= r[j].claimedAt
  {
    FilterCounts(s.claims, (e: UserClaim) => e.browserFingerprint == fingerprint);
    Newest(Filter(s.claims, (e: UserClaim) => e.browserFingerprint == fingerprint))
  }

  /** Every entry lands in the listing of its own IP address and of its own
      fingerprint. */
  lemma EntryListedUnderItsKeys(s: Store, j: nat)
    requires j < |s.claims|
    ensures s.claims[j] in ClaimsByIp(s, s.claims[j].ipAddress)
    ensures s.claims[j] in ClaimsByFingerprint(s, s.claims[j].browserFingerprint)
  {
    var e := s.claims[j];
    assert multiset(s.claims)[e] > 0;
    assert multiset(ClaimsByIp(s, e.ipAddress))[e] > 0;
    assert multiset(ClaimsByFingerprint(s, e.browserFingerprint))[e] > 0;
  }

  /** `.populate('coupon')`: the coupon an entry references, if it is still
      in the pool. */
  function PopulateCoupon(s: Store, e: UserClaim): (r: Option<Coupon>)
    ensures r.None? <==> forall i | 0 <= i < |s.coupons| :: s.coupons[i].id != e.coupon
    ensures r.Some? ==> r.value in s.coupons && r.value.id == e.coupon
  {
    match FindCoupon(s.coupons, e.coupon)
    case None => None
    case Some(i) => Some(s.coupons[i])
  }

  /** Under the store invariant the populated coupon of every ledger entry
      is present, claimed, and claimed by exactly that entry: the listing
      never shows a dangling reference. */
  lemma PopulatedCouponIsClaimedByEntry(s: Store, j: nat)
    requires Inv(s)
    requires j < |s.claims|
    ensures PopulateCoupon(s, s.claims[j]).Some?
    ensures PopulateCoupon(s, s.claims[j]).value.isClaimed
    ensures PopulateCoupon(s, s.claims[j]).value.claimedBy == Some(s.claims[j].id)
  {
    var e := s.claims[j];
    assert ClaimedIn(s.coupons, e.coupon);
    var i :| 0 <= i < |s.coupons| && s.coupons[i].id == e.coupon && s.coupons[i].isClaimed;
    var k := FindCoupon(s.coupons, e.coupon).value;
    assert k == i by {
      assert UniqueCouponIds(s.coupons);
      assert s.coupons[k].id == s.coupons[i].id;
    }
    EntryForMatches(s, i, j);
  }

  /** In a consistent store, the entry a claimed coupon's back-reference
      names is the one entry referencing that coupon. */
  lemma EntryForMatches(s: Store, i: nat, j: nat)
    requires Inv(s)
    requires i < |s.coupons| && j < |s.claims|
    requires s.coupons[i].isClaimed && s.claims[j].coupon == s.coupons[i].id
    ensures s.coupons[i].claimedBy == Some(s.claims[j].id)
  {
    assert EntryFor(s.claims, s.coupons[i].claimedBy, s.coupons[i].id);
    var j' :| 0 <= j' < |s.claims| && s.coupons[i].claimedBy == Some(s.claims[j'].id) && s.claims[j'].coupon == s.coupons[i].id;
    assert OneEntryPerCoupon(s.claims);
    assert s.claims[j'].coupon == s.claims[j].coupon;
  }

  /** 7 days in milliseconds; the 24-hour window is the cooldown's
      `Eligibility.CooldownMs`. */
  const WeekMs: nat := 7 * Eligibility.CooldownMs

  /** The body of `GET /api/claims/stats`. */
  datatype ClaimStats = ClaimStats(
    totalClaims: nat,
    claimsLast24Hours: nat,
    claimsLast7Days: nat,
    uniqueIPCount: nat,
    uniqueBrowserCount: nat)

  /** The query `{ claimedAt: { $gte: cutoff } }`. */
  function ClaimedAtOrAfter(cutoff: int): UserClaim -> bool {
    (e: UserClaim) => e.claimedAt >= cutoff
  }

  /** The entries `countDocuments` counts for that query: every entry
      claimed at or after the cut-off, as often as it is in the ledger, and
      nothing else. */
  function ClaimedSince(ls: seq<UserClaim>, cutoff: int): (r: seq<UserClaim>)
    ensures forall e :: multiset(r)[e] == if e.claimedAt >= cutoff then multiset(ls)[e] else 0
  {
    FilterCounts(ls, ClaimedAtOrAfter(cutoff));
    Filter(ls, ClaimedAtOrAfter(cutoff))
  }

  /** An entry at or after the cut-off adds one to the count; the entries
      already counted stay counted. */
  lemma {:induction false} ClaimedSinceAppend(ls: seq<UserClaim>, e: UserClaim, cutoff: int)
    requires e.claimedAt >= cutoff
    ensures ClaimedSince(ls + [e], cutoff) == ClaimedSince(ls, cutoff) + [e]
  {
    FilterAppend(ls, [e], ClaimedAtOrAfter(cutoff));
    FilterAll([e], ClaimedAtOrAfter(cutoff));
  }

  /** The IP addresses of the entries, in ledger order. */
  function IpAddresses(ls: seq<UserClaim>): (r: seq<string>)
    ensures |r| == |ls| && forall j | 0 <= j < |ls| :: r[j] == ls[j].ipAddress
  {
    seq(|ls|, j requires 0 <= j < |ls| => ls[j].ipAddress)
  }

  /** The device fingerprints of the entries, in ledger order. */
  function Fingerprints(ls: seq<UserClaim>): (r: seq<string>)
    ensures |r| == |ls| && forall j | 0 <= j < |ls| :: r[j] == ls[j].browserFingerprint
  {
    seq(|ls|, j requires 0 <= j < |ls| => ls[j].browserFingerprint)
  }

  /** `.distinct('ipAddress')` holds exactly the IP addresses the entries
      carry. */
  lemma DistinctIpsAreValues(ls: seq<UserClaim>)
    ensures Distinct(IpAddresses(ls)) == set e | e in ls :: e.ipAddress
  {
    var d := Distinct(IpAddresses(ls));
    forall x | x in d
      ensures x in set e | e in ls :: e.ipAddress
    {
      var j :| 0 <= j < |ls| && IpAddresses(ls)[j] == x;
      assert ls[j] in ls;
    }
    forall e | e in ls
      ensures e.ipAddress in d
    {
      var j :| 0 <= j < |ls| && ls[j] == e;
      assert IpAddresses(ls)[j] == e.ipAddress;
    }
  }

  /** `.distinct('browserFingerprint')` holds exactly the fingerprints the
      entries carry. */
  lemma DistinctFingerprintsAreValues(ls: seq<UserClaim>)
    ensures Distinct(Fingerprints(ls)) == set e | e in ls :: e.browserFingerprint
  {
    var d := Distinct(Fingerprints(ls));
    forall x | x in d
      ensures x in set e | e in ls :: e.browserFingerprint
    {
      var j :| 0 <= j < |ls| && Fingerprints(ls)[j] == x;
      assert ls[j] in ls;
    }
    forall e | e in ls
      ensures e.browserFingerprint in d
    {
      var j :| 0 <= j < |ls| && ls[j] == e;
      assert Fingerprints(ls)[j] == e.browserFingerprint;
    }
  }

  /** The statistics at time `now`: the ledger size, the entries claimed in
      the last 24 hours and 7 days (cut-offs inclusive), and the number of
      distinct IP addresses and fingerprints. The windows nest and every
      count is bounded by the total; a non-empty ledger has at least one
      address and one fingerprint. */
  function Stats(s: Store, now: Time): (st: ClaimStats)
    ensures st.totalClaims == |s.claims|
    ensures st.claimsLast24Hours == |ClaimedSince(s.claims, now - Eligibility.CooldownMs)|
    ensures st.claimsLast7Days == |ClaimedSince(s.claims, now - WeekMs)|
    ensures st.uniqueIPCount == |set e | e in s.claims :: e.ipAddress|
    ensures st.uniqueBrowserCount == |set e | e in s.claims :: e.browserFingerprint|
    ensures st.claimsLast24Hours <= st.claimsLast7Days <= st.totalClaims
    ensures st.uniqueIPCount <= st.totalClaims && st.uniqueBrowserCount <= st.totalClaims
    ensures st.totalClaims > 0 ==> st.uniqueIPCount >= 1 && st.uniqueBrowserCount >= 1
  {
    var day := ClaimedSince(s.claims, now - Eligibility.CooldownMs);
    var week := ClaimedSince(s.claims, now - WeekMs);
    FilterMonotone(s.claims, ClaimedAtOrAfter(now - Eligibility.CooldownMs), ClaimedAtOrAfter(now - WeekMs));
    var ips := Distinct(IpAddresses(s.claims));
    var browsers := Distinct(Fingerprints(s.claims));
    DistinctIpsAreValues(s.claims);
    DistinctFingerprintsAreValues(s.claims);
    ClaimStats(|s.claims|, |day|, |week|, |ips|, |browsers|)
  }

  /** The 24-hour count uses the cooldown's window: an entry is counted
      exactly when it would still block its own device from claiming. */
  lemma DayWindowIsCooldown(ls: seq<UserClaim>, e: UserClaim, now: Time)
    requires e in ls
    ensures e in ClaimedSince(ls, now - Eligibility.CooldownMs) <==> Eligibility.Recent(e, e.browserFingerprint, now)
  {
    FilterCounts(ls, ClaimedAtOrAfter(now - Eligibility.CooldownMs));
    assert multiset(ClaimedSince(ls, now - Eligibility.CooldownMs))[e] == if ClaimedAtOrAfter(now - Eligibility.CooldownMs)(e) then multiset(ls)[e] else 0;
  }

  /** A claim recorded at `now` adds one to the total and to both windows;
      nothing that was already counted drops out. */
  lemma {:induction false} NewEntryCounted(s: Store, e: UserClaim, now: Time)
    requires e.claimedAt == now
    ensures Stats(s.(claims := s.claims + [e]), now).totalClaims == Stats(s, now).totalClaims + 1
    ensures Stats(s.(claims := s.claims + [e]), now).claimsLast24Hours == Stats(s, now).claimsLast24Hours + 1
    ensures Stats(s.(claims := s.claims + [e]), now).claimsLast7Days == Stats(s, now).claimsLast7Days + 1
  {
    var ls' := s.claims + [e];
    var st := Stats(s, now);
    var st' := Stats(s.(claims := ls'), now);
    ClaimedSinceAppend(s.claims, e, now - Eligibility.CooldownMs);
    ClaimedSinceAppend(s.claims, e, now - WeekMs);
    assert st'.claimsLast24Hours == |ClaimedSince(ls', now - Eligibility.CooldownMs)|;
    assert st'.claimsLast7Days == |ClaimedSince(ls', now - WeekMs)|;
  }

  /** Every request mints a fresh fingerprint, so in a ledger whose
      fingerprints are pairwise different the unique-browser count is the
      total: the statistic counts claims, not devices. */
  lemma FreshFingerprintsCountClaims(s: Store, now: Time)
    requires NoDuplicates(Fingerprints(s.claims))
    ensures Stats(s, now).uniqueBrowserCount == Stats(s, now).totalClaims
  {
    DistinctOfNoDuplicates(Fingerprints(s.claims));
  }
}

=== FILE: common.dfy ===
/** Basic vocabulary shared by the whole model: optional values, identifiers,
    timestamps, and the few string operations the JavaScript source relies on
    (truthiness, `String.prototype.trim`, `startsWith`, decimal rendering). */
module Common {

  /** A value that may be absent (`undefined` / `null` in the source). */
  datatype Option<+T> = None | Some(value: T)

  /** A MongoDB ObjectId, modelled as a number handed out once by the store. */
  type Id = nat

  /** Milliseconds since the epoch, as `Date.now()` returns them. */
  type Time = nat

  /** JavaScript truthiness of an optional string: present and not empty. */
  predicate Truthy(o: Option<string>) {
    o.Some? && o.value != ""
  }

  /** The characters `String.prototype.trim` removes: ECMAScript WhiteSpace
      and LineTerminator code points. */
  predicate IsJsWhitespace(ch: char) {
    || ch == ' ' || ch == '\t' || ch == '\n' || ch == '\U{000B}' || ch == '\U{000C}'
    || ch == '\r' || ch == '\U{00A0}' || ch == '\U{1680}'
    || ('\U{2000}' <= ch <= '\U{200A}')
    || ch == '\U{2028}' || ch == '\U{2029}' || ch == '\U{202F}' || ch == '\U{205F}'
    || ch == '\U{3000}' || ch == '\U{FEFF}'
  }

  /** `s` has no whitespace at either end. */
  predicate IsTrimmed(s: string) {
    s == [] || (!IsJsWhitespace(s[0]) && !IsJsWhitespace(s[|s| - 1]))
  }

  /** The first position at or after `i` that does not hold whitespace
      (or `|s|`): where the text starts once leading whitespace is dropped. */
  function SkipLeading(s: string, i: nat): (a: nat)
    requires i <= |s|
    ensures i <= a <= |s|
    ensures forall k | i <= k < a :: IsJsWhitespace(s[k])
    ensures a < |s| ==> !IsJsWhitespace(s[a])
    decreases |s| - i
  {
    if i < |s| && IsJsWhitespace(s[i]) then SkipLeading(s, i + 1) else i
  }

  /** The last position at or before `j`, and not before `lo`, that follows
      a non-whitespace character (or `lo`): where the text ends once
      trailing whitespace is dropped. */
  function SkipTrailing(s: string, lo: nat, j: nat): (b: nat)
    requires lo <= j <= |s|
    ensures lo <= b <= j
    ensures forall k | b <= k < j :: IsJsWhitespace(s[k])
    ensures b > lo ==> !IsJsWhitespace(s[b - 1])
    decreases j
  {
    if j > lo && IsJsWhitespace(s[j - 1]) then SkipTrailing(s, lo, j - 1) else j
  }

  /** `String.prototype.trim`: drops the whitespace at both ends. */
  function Trim(s: string): (r: string)
    ensures IsTrimmed(r)
    ensures |r| <= |s|
  {
    var a := SkipLeading(s, 0);
    var b := SkipTrailing(s, a, |s|);
    s[a..b]
  }

  /** What `Trim` keeps: an infix of `s` such that everything before and
      after it is whitespace -- so, being trimmed itself, the longest such
      infix. */
  lemma TrimIsInfix(s: string)
    ensures exists a, b | 0 <= a <= b <= |s| ::
              && Trim(s) == s[a..b]
              && (forall i | 0 <= i < a :: IsJsWhitespace(s[i]))
              && (forall i | b <= i < |s| :: IsJsWhitespace(s[i]))
  {
    var a := SkipLeading(s, 0);
    var b := SkipTrailing(s, a, |s|);
    assert Trim(s) == s[a..b];
  }

  /** Trimming leaves a string without surrounding whitespace untouched. */
  lemma TrimOfTrimmed(s: string)
    requires IsTrimmed(s)
    ensures Trim(s) == s
  {
    assert SkipLeading(s, 0) == 0;
    assert SkipTrailing(s, 0, |s|) == |s|;
  }

  /** Trimming is idempotent, so a stored (trimmed) value is a fixed point. */
  lemma TrimIdempotent(s: string)
    ensures Trim(Trim(s)) == Trim(s)
  {
    TrimOfTrimmed(Trim(s));
  }

  /** Leading whitespace in front of a trimmed, non-empty string is all
      `Trim` removes. */
  lemma TrimDropsPadding(s: string)
    requires IsTrimmed(s) && s != ""
    ensures Trim(" " + s) == s
  {
    var p := " " + s;
    assert SkipLeading(p, 1) == 1;
    assert SkipLeading(p, 0) == 1;
    assert SkipTrailing(p, 1, |p|) == |p|;
    assert p[1..|p|] == s;
  }

  /** `s.startsWith(prefix)`. */
  predicate StartsWith(s: string, prefix: string) {
    |prefix| <= |s| && s[..|prefix|] == prefix
  }

  /** The decimal digit for `d`. */
  function Digit(d: nat): (c: char)
    requires d < 10
    ensures '0' <= c <= '9'
    ensures c as int - '0' as int == d
  {
    "0123456789"[d]
  }

  /** The number a string of decimal digits denotes, most significant digit
      first (the empty string denotes 0). */
  function DigitsValue(s: string): int {
    if s == [] then 0 else 10 * DigitsValue(s[..|s| - 1]) + (s[|s| - 1] as int - '0' as int)
  }

  /** `String(n)` for a natural number: its decimal digits, most significant
      first, with no leading zero, denoting `n`. */
  function DecimalString(n: nat): (r: string)
    ensures |r| >= 1
    ensures forall i | 0 <= i < |r| :: '0' <= r[i] <= '9'
    ensures |r| > 1 ==> r[0] != '0'
    ensures DigitsValue(r) == n
  {
    if n < 10 then [Digit(n)]
    else
      var r := DecimalString(n / 10) + [Digit(n % 10)];
      assert r[..|r| - 1] == DecimalString(n / 10);
      r
  }

  /** Different numbers are rendered differently. */
  lemma DecimalStringInjective(a: nat, b: nat)
    requires a != b
    ensures DecimalString(a) != DecimalString(b)
  {
  }
}

=== FILE: coupons.dfy ===
/** The coupon routes: the public claim route, which hands out the oldest
    available coupon and records the claim in the ledger, and the admin
    routes that list, create (singly, in batches, as test data), update and
    delete coupons. Every route is a pure transition from a database state
    to a response and the next state; a route that fails leaves the state
    as it was. */
module CouponRoutes {
  import opened Common
  import opened Models
  import opened Sequences
  import opened Database
  import Eligibility
  import opened Auth

  /** A route's response together with the database state it leaves. */
  datatype Transition<R> = Transition(response: R, store: Store)

  // ===== Claim =====

  /** Responses of `POST /claim`. `NoCouponsAvailable` carries the
      `details` counts of the 404 body. */
  datatype ClaimResponse =
    | Granted(code: string, description: string)
    | NoCouponsAvailable(totalCoupons: nat, claimedCoupons: nat, availableCoupons: nat)
    | AlreadyClaimed(nextAvailableTime: int)
    | ClaimFailed

  /** A coupon the claim query `{ isActive: true, isClaimed: false }` matches. */
  predicate Available(c: Coupon) {
    c.isActive && !c.isClaimed
  }

  /** Coupon `k` is available and no available coupon was created earlier. */
  ghost predicate OldestAvailable(cs: seq<Coupon>, k: nat) {
    && k < |cs|
    && Available(cs[k])
    && forall i | 0 <= i < |cs| && Available(cs[i]) :: cs[k].createdAt <= cs[i].createdAt
  }

  /** `findOne({ isActive: true, isClaimed: false }).sort({ createdAt: 1 })`:
      an available coupon created no later than any other. The database
      leaves the choice among coupons created at the same instant open; the
      model settles it by taking the one stored first. */
  function NextCoupon(cs: seq<Coupon>): (r: Option<nat>)
    ensures r.None? <==> forall i | 0 <= i < |cs| :: !Available(cs[i])
    ensures r.Some? ==> OldestAvailable(cs, r.value)
    ensures r.Some? ==> forall i | 0 <= i < r.value && Available(cs[i]) :: cs[i].createdAt > cs[r.value].createdAt
  {
    if cs == [] then None
    else
      var n := |cs| - 1;
      var r := NextCoupon(cs[..n]);
      assert forall i | 0 <= i < n :: cs[..n][i] == cs[i];
      if !Available(cs[n]) then r
      else if r.None? || cs[n].createdAt < cs[r.value].createdAt then Some(n)
      else r
  }

  /** `countDocuments({ isClaimed: true })`. */
  function CountClaimed(cs: seq<Coupon>): (n: nat)
    ensures n <= |cs|
  {
    |Filter(cs, (c: Coupon) => c.isClaimed)|
  }

  /** `s'` is `s` after coupon `k` was handed to `user` at `now`: one ledger
      entry is appended under the next id, the coupon is flagged as claimed
      with a back-reference to that entry and saved, and nothing else
      changes. */
  ghost predicate GrantStep(s: Store, k: nat, user: UserInfo, now: Time, s': Store) {
    && k < |s.coupons|
    && user.ipAddress.Some?
    && s'.claims == s.claims + [UserClaim(s.nextId, user.ipAddress.value, user.browserFingerprint, s.coupons[k].id, now)]
    && s'.nextId == s.nextId + 1
    && |s'.coupons| == |s.coupons|
    && (forall i | 0 <= i < |s.coupons| && i != k :: s'.coupons[i] == s.coupons[i])
    && s'.coupons[k].isClaimed && s'.coupons[k].claimedBy == Some(s.nextId)
    && s'.coupons[k].updatedAt == now
    && s'.coupons[k].id == s.coupons[k].id && s'.coupons[k].code == s.coupons[k].code
    && s'.coupons[k].description == s.coupons[k].description
    && s'.coupons[k].isActive == s.coupons[k].isActive && s'.coupons[k].createdAt == s.coupons[k].createdAt
  }

  /** The claim handler once the eligibility check has passed: with no
      available coupon, 404 with the pool counts; a ledger entry that fails
      validation (no IP address, empty fingerprint), 500; otherwise the
      oldest available coupon is granted. Only a grant changes the state. */
  function ClaimCoupon(s: Store, user: UserInfo, now: Time): (t: Transition<ClaimResponse>)
    ensures !t.response.AlreadyClaimed?
    ensures t.response.NoCouponsAvailable? <==> forall i | 0 <= i < |s.coupons| :: !Available(s.coupons[i])
    ensures t.response.NoCouponsAvailable? ==>
      && t.response.totalCoupons == |s.coupons|
      && t.response.claimedCoupons == CountClaimed(s.coupons)
      && t.response.availableCoupons == 0
    ensures t.response.ClaimFailed? <==>
      (exists i | 0 <= i < |s.coupons| :: Available(s.coupons[i]))
      && !(Truthy(user.ipAddress) && user.browserFingerprint != "")
    ensures !t.response.Granted? ==> t.store == s
    ensures t.response.Granted? ==>
      && NextCoupon(s.coupons).Some?
      && OldestAvailable(s.coupons, NextCoupon(s.coupons).value)
      && GrantStep(s, NextCoupon(s.coupons).value, user, now, t.store)
      && t.response == Granted(s.coupons[NextCoupon(s.coupons).value].code,
                               s.coupons[NextCoupon(s.coupons).value].description)
  {
    match NextCoupon(s.coupons)
    case None => Transition(NoCouponsAvailable(|s.coupons|, CountClaimed(s.coupons), 0), s)
    case Some(k) =>
      if !Truthy(user.ipAddress) || user.browserFingerprint == "" then Transition(ClaimFailed, s)
      else
        var e := NewUserClaim(s.nextId, user.ipAddress.value, user.browserFingerprint, s.coupons[k].id, now);
        var c := MarkClaimed(s.coupons[k], e.id, now);
        var s' := Store(s.coupons[k := c], s.claims + [e], s.nextId + 1);
        assert GrantStep(s, k, user, now, s');
        Transition(Granted(c.code, c.description), s')
  }

  /** `POST /claim`: the eligibility check runs first and a refusal leaves
      the state unchanged; otherwise the claim handler decides. */
  function ClaimRoute(s: Store, user: UserInfo, now: Time): (t: Transition<ClaimResponse>)
    ensures t.response.AlreadyClaimed? <==>
      Eligibility.CheckPreviousClaims(s.claims, user.browserFingerprint, now).Deny?
    ensures t.response.AlreadyClaimed? ==>
      && t.store == s
      && t.response.nextAvailableTime == Eligibility.CheckPreviousClaims(s.claims, user.browserFingerprint, now).nextAvailableTime
    ensures !t.response.AlreadyClaimed? ==> t == ClaimCoupon(s, user, now)
  {
    match Eligibility.CheckPreviousClaims(s.claims, user.browserFingerprint, now)
    case Deny(next) => Transition(AlreadyClaimed(next), s)
    case Allow => ClaimCoupon(s, user, now)
  }

  /** The claim route preserves the invariant and extends the state; in
      particular the granted coupon was unclaimed and no earlier ledger
      entry referenced it. */
  lemma ClaimPreservesInv(s: Store, user: UserInfo, now: Time)
    requires Inv(s)
    ensures Inv(ClaimRoute(s, user, now).store)
    ensures Extends(s, ClaimRoute(s, user, now).store)
    ensures ClaimRoute(s, user, now).response.Granted? ==>
      |ClaimRoute(s, user, now).store.claims| == |s.claims| + 1
  {
    var t := ClaimRoute(s, user, now);
    if t.response.Granted? {
      var k := NextCoupon(s.coupons).value;
      var e := NewUserClaim(s.nextId, user.ipAddress.value, user.browserFingerprint, s.coupons[k].id, now);
      RecordClaimPreservesInv(s, k, e, now);
    } else {
      ExtendsRefl(s);
    }
  }

  /** Two coupons are granted in creation order: a second claim after a
      successful first one gets a different coupon, created no earlier. */
  lemma ClaimsFollowCreationOrder(s: Store, u1: UserInfo, u2: UserInfo, t1: Time, t2: Time)
    requires ClaimCoupon(s, u1, t1).response.Granted?
    requires ClaimCoupon(ClaimCoupon(s, u1, t1).store, u2, t2).response.Granted?
    ensures NextCoupon(s.coupons).Some? && NextCoupon(ClaimCoupon(s, u1, t1).store.coupons).Some?
    ensures NextCoupon(s.coupons).value != NextCoupon(ClaimCoupon(s, u1, t1).store.coupons).value
    ensures s.coupons[NextCoupon(s.coupons).value].createdAt
            <= s.coupons[NextCoupon(ClaimCoupon(s, u1, t1).store.coupons).value].createdAt
  {
    var s1 := ClaimCoupon(s, u1, t1).store;
    var k1 := NextCoupon(s.coupons).value;
    var k2 := NextCoupon(s1.coupons).value;
    assert GrantStep(s, k1, u1, t1, s1);
    assert !Available(s1.coupons[k1]);
    assert s1.coupons[k2] == s.coupons[k2];
  }

  /** A device that has just been granted a coupon is refused for the whole
      cooldown window, and told when the window ends. */
  lemma RepeatClaimRefused(s: Store, user: UserInfo, now: Time, later: Time, again: UserInfo)
    requires ClaimRoute(s, user, now).response.Granted?
    requires again.browserFingerprint == user.browserFingerprint
    requires now <= later <= now + Eligibility.CooldownMs
    ensures ClaimRoute(ClaimRoute(s, user, now).store, again, later).response
            == AlreadyClaimed(now + Eligibility.CooldownMs)
  {
    assert forall j | 0 <= j < |s.claims| :: !Eligibility.Recent(s.claims[j], user.browserFingerprint, now);
    var s1 := ClaimCoupon(s, user, now).store;
    GrantedClaimIsLast(s, user, now);
    var n := |s.claims|;
    assert Eligibility.Recent(s1.claims[n], again.browserFingerprint, later);
    var v := Eligibility.CheckPreviousClaims(s1.claims, again.browserFingerprint, later);
    var j :| 0 <= j < |s1.claims| && Eligibility.Recent(s1.claims[j], again.browserFingerprint, later)
      && v.nextAvailableTime == s1.claims[j].claimedAt + Eligibility.CooldownMs;
  }

  /** After a grant the ledger is the old ledger plus one entry for the
      claiming device, stamped with the claim time. */
  lemma GrantedClaimIsLast(s: Store, user: UserInfo, now: Time)
    requires ClaimCoupon(s, user, now).response.Granted?
    ensures |ClaimCoupon(s, user, now).store.claims| == |s.claims| + 1
    ensures forall j | 0 <= j < |s.claims| :: ClaimCoupon(s, user, now).store.claims[j] == s.claims[j]
    ensures ClaimCoupon(s, user, now).store.claims[|s.claims|].browserFingerprint == user.browserFingerprint
    ensures ClaimCoupon(s, user, now).store.claims[|s.claims|].claimedAt == now
  {
    assert GrantStep(s, NextCoupon(s.coupons).value, user, now, ClaimCoupon(s, user, now).store);
  }

  /** Once the cooldown has passed, the same device is let through again. */
  lemma ClaimAllowedAfterCooldown(s: Store, user: UserInfo, now: Time, later: Time, again: UserInfo)
    requires ClaimRoute(s, user, now).response.Granted?
    requires again.browserFingerprint == user.browserFingerprint
    requires later > now + Eligibility.CooldownMs
    ensures !ClaimRoute(ClaimRoute(s, user, now).store, again, later).response.AlreadyClaimed?
  {
    assert forall j | 0 <= j < |s.claims| :: !Eligibility.Recent(s.claims[j], user.browserFingerprint, now);
    var s1 := ClaimCoupon(s, user, now).store;
    GrantedClaimIsLast(s, user, now);
    forall j | 0 <= j < |s1.claims|
      ensures !Eligibility.Recent(s1.claims[j], again.browserFingerprint, later)
    {
    }
  }

  // ===== Admin routes =====

  const CodeExistsMessage: string := "Coupon code already exists"
  const InvalidCouponsMessage: string := "Invalid coupons data"
  const AllCodesExistMessage: string := "All coupon codes already exist"
  const NotFoundMessage: string := "Coupon not found"
  const ClaimedNotDeletableMessage: string := "Cannot delete a claimed coupon"

  /** Responses of the admin routes that change the pool. `ServerError` is
      the 500 a failed save or insert ends in. */
  datatype AdminResponse =
    | Created(coupon: Coupon)
    | BatchCreated(insertedCount: nat, duplicatesSkipped: int)
    | TestCouponsCreated(coupons: seq<Coupon>)
    | Updated(coupon: Coupon)
    | Deleted
    | NotFound(message: string)
    | BadRequest(message: string)
    | ServerError

  /** The documents built for `fields`, with ids issued from `firstId` on. */
  function NewCoupons(firstId: Id, fields: seq<CouponFields>, now: Time): (r: seq<Coupon>)
    ensures |r| == |fields|
    ensures forall k | 0 <= k < |r| :: r[k] == NewCoupon(firstId + k, fields[k], now)
  {
    seq(|fields|, k requires 0 <= k < |fields| => NewCoupon(firstId + k, fields[k], now))
  }

  /** None of the codes in `docs` is in `cs`, and they are pairwise
      different: appending `docs` keeps the unique index. */
  predicate CodesFree(cs: seq<Coupon>, docs: seq<Coupon>) {
    && (forall k | 0 <= k < |docs| :: !HasCode(cs, docs[k].code))
    && UniqueCodes(docs)
  }

  /** The documents built for `fields` validate and keep the unique index
      exactly when every trimmed code and description is non-empty and the
      trimmed codes are new and pairwise different. */
  lemma InsertableIff(s: Store, fields: seq<CouponFields>, now: Time)
    ensures
      var docs := NewCoupons(s.nextId, fields, now);
      (forall k | 0 <= k < |docs| :: CouponValid(docs[k])) && CodesFree(s.coupons, docs)
      <==>
      && (forall k | 0 <= k < |fields| :: Trim(fields[k].code) != "" && fields[k].description != "")
      && (forall k | 0 <= k < |fields| :: !HasCode(s.coupons, Trim(fields[k].code)))
      && (forall i, j | 0 <= i < j < |fields| :: Trim(fields[i].code) != Trim(fields[j].code))
  {
    var docs := NewCoupons(s.nextId, fields, now);
    assert forall k | 0 <= k < |fields| :: docs[k].code == Trim(fields[k].code) && docs[k].description == fields[k].description;
  }

  /** `insertMany(fields)` (and `save` of one new document): every document
      is validated and checked against the unique index, and either all are
      stored or, on any failure, none. */
  function InsertMany(s: Store, fields: seq<CouponFields>, now: Time): (r: Option<seq<Coupon>>)
    ensures r.Some? <==>
      && (forall k | 0 <= k < |fields| :: Trim(fields[k].code) != "" && fields[k].description != "")
      && (forall k | 0 <= k < |fields| :: !HasCode(s.coupons, Trim(fields[k].code)))
      && (forall i, j | 0 <= i < j < |fields| :: Trim(fields[i].code) != Trim(fields[j].code))
    ensures r.Some? ==> r.value == NewCoupons(s.nextId, fields, now)
  {
    var docs := NewCoupons(s.nextId, fields, now);
    InsertableIff(s, fields, now);
    if (forall k | 0 <= k < |docs| :: CouponValid(docs[k])) && CodesFree(s.coupons, docs) then Some(docs)
    else None
  }

  /** The state with `added` appended to the pool and their ids issued. */
  function Appended(s: Store, added: seq<Coupon>): Store {
    Store(s.coupons + added, s.claims, s.nextId + |added|)
  }

  lemma AppendUniqueCodes(cs: seq<Coupon>, docs: seq<Coupon>)
    requires UniqueCodes(cs) && CodesFree(cs, docs)
    ensures UniqueCodes(cs + docs)
  {
    var all := cs + docs;
    var n := |cs|;
    forall i, j | 0 <= i < j < |all|
      ensures all[i].code != all[j].code
    {
      if j >= n {
        assert all[j] == docs[j - n];
        if i < n {
          assert all[i] == cs[i];
        } else {
          assert all[i] == docs[i - n];
        }
      }
    }
  }

  /** A successful insert preserves the invariant and extends the state. */
  lemma InsertManyPreservesInv(s: Store, fields: seq<CouponFields>, now: Time)
    requires Inv(s)
    requires InsertMany(s, fields, now).Some?
    ensures Inv(Appended(s, InsertMany(s, fields, now).value))
    ensures Extends(s, Appended(s, InsertMany(s, fields, now).value))
  {
    var docs := InsertMany(s, fields, now).value;
    AppendUniqueCodes(s.coupons, docs);
    assert FreshCoupons(s, docs, s.nextId + |docs|);
    AppendCouponsPreservesInv(s, docs, s.nextId + |docs|);
  }

  /** `POST /` (create one coupon): refused with 400 when a coupon already
      holds the trimmed code; otherwise the new coupon is stored when it
      validates, and the route fails with 500 when it does not. */
  function CreateCoupon(s: Store, f: CouponFields, now: Time): (t: Transition<AdminResponse>)
    ensures t.response == BadRequest(CodeExistsMessage) <==> HasCode(s.coupons, Trim(f.code))
    ensures t.response.Created? <==>
      !HasCode(s.coupons, Trim(f.code)) && Trim(f.code) != "" && f.description != ""
    ensures t.response.Created? || t.response in {BadRequest(CodeExistsMessage), ServerError}
    ensures t.response.ServerError? <==>
      !HasCode(s.coupons, Trim(f.code)) && (Trim(f.code) == "" || f.description == "")
    ensures t.response.Created? ==>
      && t.response.coupon == NewCoupon(s.nextId, f, now)
      && t.store == Store(s.coupons + [t.response.coupon], s.claims, s.nextId + 1)
    ensures !t.response.Created? ==> t.store == s
  {
    if HasCode(s.coupons, Trim(f.code)) then Transition(BadRequest(CodeExistsMessage), s)
    else
      match InsertMany(s, [f], now)
      case None => Transition(ServerError, s)
      case Some(added) => Transition(Created(added[0]), Appended(s, added))
  }

  /** Creating a coupon preserves the invariant and extends the state. */
  lemma CreatePreservesInv(s: Store, f: CouponFields, now: Time)
    requires Inv(s)
    ensures Inv(CreateCoupon(s, f, now).store)
    ensures Extends(s, CreateCoupon(s, f, now).store)
  {
    if CreateCoupon(s, f, now).response.Created? {
      InsertManyPreservesInv(s, [f], now);
    } else {
      ExtendsRefl(s);
    }
  }

  /** Once a code is created, creating it again -- with or without
      surrounding whitespace -- is refused. */
  lemma CreateTwiceRefused(s: Store, f: CouponFields, g: CouponFields, now: Time, later: Time)
    requires CreateCoupon(s, f, now).response.Created?
    requires Trim(g.code) == Trim(f.code)
    ensures CreateCoupon(CreateCoupon(s, f, now).store, g, later).response == BadRequest(CodeExistsMessage)
  {
    var s1 := CreateCoupon(s, f, now).store;
    assert s1.coupons[|s.coupons|].code == Trim(f.code);
  }

  /** Item `i` is the first with its code (the `Set` of seen codes did not
      hold it yet). */
  predicate FirstOccurrence(items: seq<CouponFields>, i: nat)
    requires i < |items|
  {
    forall j | 0 <= j < i :: items[j].code != items[i].code
  }

  /** `x` is the first item of `items` with its code. */
  ghost predicate FirstWithItsCode(items: seq<CouponFields>, x: CouponFields) {
    exists i | 0 <= i < |items| :: FirstOccurrence(items, i) && items[i] == x
  }

  /** No two items share a code. */
  ghost predicate DistinctCodes(xs: seq<CouponFields>) {
    forall a, b | 0 <= a < b < |xs| :: xs[a].code != xs[b].code
  }

  /** The batch route's de-duplication loop: the first item for each raw
      code, in request order. */
  function Dedup(items: seq<CouponFields>): (r: seq<CouponFields>)
    ensures |r| <= |items|
  {
    if items == [] then []
    else
      var n := |items| - 1;
      var r := Dedup(items[..n]);
      if FirstOccurrence(items, n) then r + [items[n]] else r
  }

  /** `Dedup` keeps only first items of their code, so no code twice. */
  lemma {:induction false} DedupSound(items: seq<CouponFields>)
    ensures DistinctCodes(Dedup(items))
    ensures forall x | x in Dedup(items) :: FirstWithItsCode(items, x)
  {
    if items != [] {
      var n := |items| - 1;
      var front := items[..n];
      DedupSound(front);
      var r := Dedup(front);
      assert forall i | 0 <= i < n :: front[i] == items[i];
      assert forall i | 0 <= i < n :: FirstOccurrence(front, i) == FirstOccurrence(items, i);
      forall x | x in r
        ensures FirstWithItsCode(items, x) && (FirstOccurrence(items, n) ==> x.code != items[n].code)
      {
        var i :| 0 <= i < n && FirstOccurrence(front, i) && front[i] == x;
        assert FirstOccurrence(items, i) && items[i] == x;
      }
      if FirstOccurrence(items, n) {
        var r' := r + [items[n]];
        forall a, b | 0 <= a < b < |r'|
          ensures r'[a].code != r'[b].code
        {
          assert r'[a] == r[a];
          if b < |r| {
            assert r'[b] == r[b];
          } else {
            assert r[a] in r;
          }
        }
      }
    }
  }

  /** `Dedup` keeps every item that is the first with its code. */
  lemma {:induction false} DedupComplete(items: seq<CouponFields>)
    ensures forall i | 0 <= i < |items| && FirstOccurrence(items, i) :: items[i] in Dedup(items)
  {
    if items != [] {
      var n := |items| - 1;
      var front := items[..n];
      DedupComplete(front);
      forall i | 0 <= i < |items| && FirstOccurrence(items, i)
        ensures items[i] in Dedup(items)
      {
        if i < n {
          assert front[i] == items[i];
          assert FirstOccurrence(front, i);
        }
      }
    }
  }

  /** Every item's code is the code of some item `Dedup` keeps. */
  lemma DedupKeepsEveryCode(items: seq<CouponFields>, i: nat)
    requires i < |items|
    ensures exists x | x in Dedup(items) :: x.code == items[i].code
  {
    var m := i;
    while m > 0 && !FirstOccurrence(items, m)
      invariant 0 <= m <= i && items[m].code == items[i].code
      decreases m
    {
      var j :| 0 <= j < m && items[j].code == items[m].code;
      m := j;
    }
    DedupComplete(items);
  }

  /** Filtering keeps pairwise-different codes pairwise different. */
  lemma {:induction false} FilterKeepsDistinctCodes(xs: seq<CouponFields>, p: CouponFields -> bool)
    requires DistinctCodes(xs)
    ensures DistinctCodes(Filter(xs, p))
  {
    if xs != [] {
      var tail := xs[1..];
      assert DistinctCodes(tail) by {
        forall a, b | 0 <= a < b < |tail|
          ensures tail[a].code != tail[b].code
        {
          assert tail[a] == xs[a + 1] && tail[b] == xs[b + 1];
        }
      }
      FilterKeepsDistinctCodes(tail, p);
      if p(xs[0]) {
        var r := Filter(tail, p);
        forall m | 0 <= m < |r|
          ensures r[m].code != xs[0].code
        {
          assert r[m] in tail;
          var j :| 0 <= j < |tail| && tail[j] == r[m];
          assert xs[j + 1] == r[m];
        }
        var full := [xs[0]] + r;
        forall a, b | 0 <= a < b < |full|
          ensures full[a].code != full[b].code
        {
          assert full[b] == r[b - 1];
          if a > 0 {
            assert full[a] == r[a - 1];
          }
        }
        assert Filter(xs, p) == full;
      }
    }
  }

  /** The items the batch route inserts: de-duplicated, and without those
      whose raw code is already stored (the `existingCodes.includes` test). */
  function NewItems(s: Store, items: seq<CouponFields>): seq<CouponFields> {
    Filter(Dedup(items), (f: CouponFields) => !HasCode(s.coupons, f.code))
  }

  /** Where a kept item comes from: the first item with its code, whose
      raw code is not stored. */
  lemma NewItemOrigin(s: Store, items: seq<CouponFields>, m: nat) returns (i: nat)
    requires m < |NewItems(s, items)|
    ensures i < |items| && FirstOccurrence(items, i) && items[i] == NewItems(s, items)[m]
    ensures !HasCode(s.coupons, items[i].code)
  {
    var x := NewItems(s, items)[m];
    assert x in NewItems(s, items);
    DedupSound(items);
    i :| 0 <= i < |items| && FirstOccurrence(items, i) && items[i] == x;
  }

  /** Every item whose raw code is not stored has a kept item with its code. */
  lemma NewItemFor(s: Store, items: seq<CouponFields>, i: nat) returns (m: nat)
    requires i < |items| && !HasCode(s.coupons, items[i].code)
    ensures m < |NewItems(s, items)| && NewItems(s, items)[m].code == items[i].code
  {
    var valid := Dedup(items);
    var kept := NewItems(s, items);
    DedupKeepsEveryCode(items, i);
    var x :| x in valid && x.code == items[i].code;
    FilterCounts(valid, (f: CouponFields) => !HasCode(s.coupons, f.code));
    assert multiset(kept)[x] == multiset(valid)[x];
    assert x in kept;
    m :| 0 <= m < |kept| && kept[m] == x;
  }

  /** The batch route's filters keep nothing exactly when every item's raw
      code is already stored. */
  lemma NewItemsEmptyIff(s: Store, items: seq<CouponFields>)
    ensures NewItems(s, items) == [] <==> forall i | 0 <= i < |items| :: HasCode(s.coupons, items[i].code)
  {
    if NewItems(s, items) == [] {
      forall i | 0 <= i < |items|
        ensures HasCode(s.coupons, items[i].code)
      {
        if !HasCode(s.coupons, items[i].code) {
          var m := NewItemFor(s, items, i);
        }
      }
    } else {
      var i := NewItemOrigin(s, items, 0);
    }
  }

  /** Kept items have pairwise different codes. */
  lemma NewItemsDistinct(s: Store, items: seq<CouponFields>)
    ensures DistinctCodes(NewItems(s, items))
  {
    DedupSound(items);
    FilterKeepsDistinctCodes(Dedup(items), (f: CouponFields) => !HasCode(s.coupons, f.code));
  }

  /** `POST /batch`: a missing or empty list is refused; items are
      de-duplicated by raw code, items whose raw code is already stored are
      dropped, and the rest are inserted together. `duplicatesSkipped` is
      the source's formula, which counts every item not inserted. */
  function BatchCreate(s: Store, coupons: Option<seq<CouponFields>>, now: Time): (t: Transition<AdminResponse>)
    ensures t.response == BadRequest(InvalidCouponsMessage) <==> coupons.None? || coupons.value == []
    ensures t.response == BadRequest(AllCodesExistMessage) <==>
      && coupons.Some? && coupons.value != []
      && forall i | 0 <= i < |coupons.value| :: HasCode(s.coupons, coupons.value[i].code)
    ensures t.response.BatchCreated? ||
            t.response in {BadRequest(InvalidCouponsMessage), BadRequest(AllCodesExistMessage), ServerError}
    ensures t.response.ServerError? <==>
      coupons.Some? && NewItems(s, coupons.value) != [] && InsertMany(s, NewItems(s, coupons.value), now).None?
    ensures t.response.BatchCreated? <==>
      coupons.Some? && NewItems(s, coupons.value) != [] && InsertMany(s, NewItems(s, coupons.value), now).Some?
    ensures !t.response.BatchCreated? ==> t.store == s
    ensures t.response.BatchCreated? ==>
      && coupons.Some?
      && 1 <= t.response.insertedCount <= |coupons.value|
      && t.response.duplicatesSkipped == |coupons.value| - t.response.insertedCount
      && |t.store.coupons| == |s.coupons| + t.response.insertedCount
      && t.store.coupons[..|s.coupons|] == s.coupons
      && t.store.claims == s.claims
      && t.store.nextId == s.nextId + t.response.insertedCount
  {
    if coupons.None? || coupons.value == [] then Transition(BadRequest(InvalidCouponsMessage), s)
    else
      var items := coupons.value;
      var valid := Dedup(items);
      var kept := NewItems(s, items);
      NewItemsEmptyIff(s, items);
      if kept == [] then Transition(BadRequest(AllCodesExistMessage), s)
      else
        match InsertMany(s, kept, now)
        case None => Transition(ServerError, s)
        case Some(result) =>
          assert (s.coupons + result)[..|s.coupons|] == s.coupons;
          Transition(BatchCreated(|result|, |valid| - |result| + (|items| - |valid|)), Appended(s, result))
  }

  /** Only the first item of a code is validated: a later copy with an
      empty description is dropped before the insert, and the batch stores
      the first one and reports the copy as skipped. */
  lemma LaterInvalidCopySkipped(s: Store, a: string, d: string, now: Time)
    requires IsTrimmed(a) && a != "" && d != ""
    requires !HasCode(s.coupons, a)
    ensures BatchCreate(s, Some([CouponFields(a, d, None), CouponFields(a, "", None)]), now).response
            == BatchCreated(1, 1)
  {
    var items := [CouponFields(a, d, None), CouponFields(a, "", None)];
    assert items[0].code == items[1].code;
    assert !FirstOccurrence(items, 1);
    assert items[..1] == [items[0]];
    assert FirstOccurrence([items[0]], 0);
    assert Dedup([items[0]]) == [items[0]] by {
      assert [items[0]][..0] == [];
    }
    assert Dedup(items) == [items[0]];
    assert NewItems(s, items) == [items[0]];
    TrimOfTrimmed(a);
  }

  /** The pool after a successful batch: the old pool followed by the
      documents built from the kept items. */
  lemma BatchStored(s: Store, items: seq<CouponFields>, now: Time)
    requires BatchCreate(s, Some(items), now).response.BatchCreated?
    ensures InsertMany(s, NewItems(s, items), now).Some?
    ensures BatchCreate(s, Some(items), now).store.coupons
            == s.coupons + NewCoupons(s.nextId, NewItems(s, items), now)
  {
  }

  /** Each coupon a successful batch stores is built from the first item
      with a code that was not stored, under the next free id; the lemma
      returns that item's position. */
  lemma BatchInsertedFrom(s: Store, items: seq<CouponFields>, now: Time, k: nat) returns (i: nat)
    requires BatchCreate(s, Some(items), now).response.BatchCreated?
    requires |s.coupons| <= k < |BatchCreate(s, Some(items), now).store.coupons|
    ensures i < |items| && FirstOccurrence(items, i) && !HasCode(s.coupons, items[i].code)
    ensures BatchCreate(s, Some(items), now).store.coupons[k]
            == NewCoupon(s.nextId + (k - |s.coupons|), items[i], now)
  {
    BatchStored(s, items, now);
    var kept := NewItems(s, items);
    var docs := NewCoupons(s.nextId, kept, now);
    var m := k - |s.coupons|;
    assert (s.coupons + docs)[k] == docs[m];
    assert docs[m] == NewCoupon(s.nextId + m, kept[m], now);
    i := NewItemOrigin(s, items, m);
  }

  /** After a successful batch, an item whose raw code was not stored has
      its trimmed code stored. */
  lemma BatchStoresNewCode(s: Store, items: seq<CouponFields>, now: Time, i: nat)
    requires BatchCreate(s, Some(items), now).response.BatchCreated?
    requires i < |items| && !HasCode(s.coupons, items[i].code)
    ensures HasCode(BatchCreate(s, Some(items), now).store.coupons, Trim(items[i].code))
  {
    BatchStored(s, items, now);
    var kept := NewItems(s, items);
    var docs := NewCoupons(s.nextId, kept, now);
    var m := NewItemFor(s, items, i);
    var n := |s.coupons|;
    assert docs[m].code == Trim(items[i].code) by {
      assert docs[m] == NewCoupon(s.nextId + m, kept[m], now);
    }
    assert (s.coupons + docs)[n + m] == docs[m];
  }

  /** After a successful batch, every item whose raw code was not stored
      has its trimmed code stored. */
  lemma BatchStoresEveryNewCode(s: Store, items: seq<CouponFields>, now: Time)
    requires BatchCreate(s, Some(items), now).response.BatchCreated?
    ensures forall i | 0 <= i < |items| && !HasCode(s.coupons, items[i].code) ::
      HasCode(BatchCreate(s, Some(items), now).store.coupons, Trim(items[i].code))
  {
    forall i | 0 <= i < |items| && !HasCode(s.coupons, items[i].code)
      ensures HasCode(BatchCreate(s, Some(items), now).store.coupons, Trim(items[i].code))
    {
      BatchStoresNewCode(s, items, now, i);
    }
  }

  /** A batch preserves the invariant and extends the state. */
  lemma BatchPreservesInv(s: Store, coupons: Option<seq<CouponFields>>, now: Time)
    requires Inv(s)
    ensures Inv(BatchCreate(s, coupons, now).store)
    ensures Extends(s, BatchCreate(s, coupons, now).store)
  {
    if BatchCreate(s, coupons, now).response.BatchCreated? {
      InsertManyPreservesInv(s, NewItems(s, coupons.value), now);
    } else {
      ExtendsRefl(s);
    }
  }

  /** Items whose codes are trimmed and whose fields validate. */
  ghost predicate CleanItems(items: seq<CouponFields>) {
    forall i | 0 <= i < |items| :: items[i].code != "" && IsTrimmed(items[i].code) && items[i].description != ""
  }

  /** A batch of clean items of which at least one code is new always
      succeeds, and inserts one coupon per distinct new code. */
  lemma BatchOfCleanItemsSucceeds(s: Store, items: seq<CouponFields>, now: Time)
    requires CleanItems(items)
    requires exists i | 0 <= i < |items| :: !HasCode(s.coupons, items[i].code)
    ensures BatchCreate(s, Some(items), now).response.BatchCreated?
    ensures BatchCreate(s, Some(items), now).response.insertedCount
            == |set i | 0 <= i < |items| && !HasCode(s.coupons, items[i].code) :: items[i].code|
  {
    NewItemsEmptyIff(s, items);
    CleanItemsInsertable(s, items, now);
    NewItemsCount(s, items);
  }

  /** The kept items of a clean batch pass validation and the unique index. */
  lemma CleanItemsInsertable(s: Store, items: seq<CouponFields>, now: Time)
    requires CleanItems(items)
    ensures InsertMany(s, NewItems(s, items), now).Some?
  {
    var kept := NewItems(s, items);
    NewItemsDistinct(s, items);
    var docs := NewCoupons(s.nextId, kept, now);
    forall k | 0 <= k < |kept|
      ensures docs[k].code == kept[k].code && CouponValid(docs[k]) && !HasCode(s.coupons, docs[k].code)
    {
      var i := NewItemOrigin(s, items, k);
      TrimOfTrimmed(kept[k].code);
    }
    assert CodesFree(s.coupons, docs);
  }

  /** The number of kept items is the number of distinct new codes. */
  lemma NewItemsCount(s: Store, items: seq<CouponFields>)
    ensures |NewItems(s, items)| == |set i | 0 <= i < |items| && !HasCode(s.coupons, items[i].code) :: items[i].code|
  {
    var kept := NewItems(s, items);
    NewItemsDistinct(s, items);
    var codes := seq(|kept|, k requires 0 <= k < |kept| => kept[k].code);
    var newCodes := set i | 0 <= i < |items| && !HasCode(s.coupons, items[i].code) :: items[i].code;
    forall c | c in newCodes
      ensures c in codes
    {
      var i :| 0 <= i < |items| && !HasCode(s.coupons, items[i].code) && items[i].code == c;
      var m := NewItemFor(s, items, i);
      assert codes[m] == c;
    }
    forall c | c in codes
      ensures c in newCodes
    {
      var m :| 0 <= m < |codes| && codes[m] == c;
      var i := NewItemOrigin(s, items, m);
    }
    assert Distinct(codes) == newCodes;
    DistinctOfNoDuplicates(codes);
  }

  /** Repeating a batch of clean items changes nothing: every code is then
      stored, so the repeat is refused with "All coupon codes already
      exist". */
  lemma BatchTwiceRefused(s: Store, items: seq<CouponFields>, now: Time, later: Time)
    requires CleanItems(items)
    requires BatchCreate(s, Some(items), now).response.BatchCreated?
    ensures BatchCreate(BatchCreate(s, Some(items), now).store, Some(items), later).response
            == BadRequest(AllCodesExistMessage)
    ensures BatchCreate(BatchCreate(s, Some(items), now).store, Some(items), later).store
            == BatchCreate(s, Some(items), now).store
  {
    var s1 := BatchCreate(s, Some(items), now).store;
    BatchStoresEveryNewCode(s, items, now);
    forall i | 0 <= i < |items|
      ensures HasCode(s1.coupons, items[i].code)
    {
      TrimOfTrimmed(items[i].code);
      if HasCode(s.coupons, items[i].code) {
        var m :| 0 <= m < |s.coupons| && s.coupons[m].code == items[i].code;
        assert s1.coupons[..|s.coupons|][m] == s1.coupons[m];
      }
    }
  }

  /** A truthy code that differs from the stored one: the route looks it up
      and, if it is free, assigns it. */
  predicate Renames(c: Coupon, code: Option<string>) {
    Truthy(code) && code.value != c.code
  }

  /** The code coupon `c` has after an update request: the trimmed new
      code when the request renames it, otherwise the stored one. */
  function UpdatedCode(c: Coupon, code: Option<string>): string {
    if Renames(c, code) then Trim(code.value) else c.code
  }

  /** `PUT /:id`: 404 for an unknown id; a truthy code different from the
      stored one is looked up (trimmed) and refused with 400 when any
      coupon -- this one included -- holds it, and otherwise replaces the
      code; a supplied description or activity flag replaces the stored
      one; the save validates and stamps `updatedAt`, and fails with 500
      on an empty description. Claim fields are never touched. */
  function UpdateCoupon(s: Store, id: Id, code: Option<string>, description: Option<string>,
                        isActive: Option<bool>, now: Time): (t: Transition<AdminResponse>)
    ensures t.response.Updated? || t.response in {NotFound(NotFoundMessage), BadRequest(CodeExistsMessage), ServerError}
    ensures t.response == NotFound(NotFoundMessage) <==> FindCoupon(s.coupons, id).None?
    ensures t.response == BadRequest(CodeExistsMessage) <==>
      && FindCoupon(s.coupons, id).Some?
      && Renames(s.coupons[FindCoupon(s.coupons, id).value], code)
      && HasCode(s.coupons, Trim(code.value))
    ensures t.response.Updated? <==>
      && FindCoupon(s.coupons, id).Some?
      && var c := s.coupons[FindCoupon(s.coupons, id).value];
         && !(Renames(c, code) && HasCode(s.coupons, Trim(code.value)))
         && UpdatedCode(c, code) != ""
         && (if description.Some? then description.value != "" else c.description != "")
    ensures !t.response.Updated? ==> t.store == s
    ensures t.response.Updated? ==> exists k | 0 <= k < |s.coupons| ::
      && s.coupons[k].id == id
      && t.store == s.(coupons := s.coupons[k := t.response.coupon])
      && UpdatedFrom(s.coupons[k], t.response.coupon, code, description, isActive, now)
      && (t.response.coupon.code == s.coupons[k].code || !HasCode(s.coupons, t.response.coupon.code))
      && CouponValid(t.response.coupon)
  {
    match FindCoupon(s.coupons, id)
    case None => Transition(NotFound(NotFoundMessage), s)
    case Some(k) =>
      var c := s.coupons[k];
      if Renames(c, code) && HasCode(s.coupons, Trim(code.value)) then Transition(BadRequest(CodeExistsMessage), s)
      else
        var c' := c.(code := UpdatedCode(c, code),
                     description := if description.Some? then description.value else c.description,
                     isActive := if isActive.Some? then isActive.value else c.isActive);
        if !CouponValid(c') then Transition(ServerError, s)
        else Transition(Updated(Saved(c', now)), s.(coupons := s.coupons[k := Saved(c', now)]))
  }

  /** `c'` is coupon `c` after an update request: the code is the trimmed
      new code or the old one, description and activity are the supplied
      values or the old ones, the claim fields and creation time are kept,
      and `updatedAt` is the save time. */
  ghost predicate UpdatedFrom(c: Coupon, c': Coupon, code: Option<string>, description: Option<string>,
                              isActive: Option<bool>, now: Time) {
    && c'.id == c.id
    && c'.code == UpdatedCode(c, code)
    && c'.description == (if description.Some? then description.value else c.description)
    && c'.isActive == (if isActive.Some? then isActive.value else c.isActive)
    && c'.isClaimed == c.isClaimed && c'.claimedBy == c.claimedBy
    && c'.createdAt == c.createdAt && c'.updatedAt == now
  }

  /** An update preserves the invariant and extends the state: a claimed
      coupon stays claimed by the same entry. */
  lemma UpdatePreservesInv(s: Store, id: Id, code: Option<string>, description: Option<string>,
                           isActive: Option<bool>, now: Time)
    requires Inv(s)
    ensures Inv(UpdateCoupon(s, id, code, description, isActive, now).store)
    ensures Extends(s, UpdateCoupon(s, id, code, description, isActive, now).store)
  {
    var t := UpdateCoupon(s, id, code, description, isActive, now);
    if t.response.Updated? {
      var k := FindCoupon(s.coupons, id).value;
      var c' := t.response.coupon;
      assert IsTrimmed(c'.code);
      forall i | 0 <= i < |s.coupons| && i != k
        ensures s.coupons[i].code != c'.code
      {
        if c'.code == s.coupons[k].code {
          assert s.coupons[i].code != s.coupons[k].code;
        }
      }
      ReplaceCouponPreservesInv(s, k, c');
    } else {
      ExtendsRefl(s);
    }
  }

  /** Resubmitting a coupon's own code with a leading space is refused as
      a duplicate: the route compares the raw code with the stored one, but
      the lookup trims it and finds the coupon itself. */
  lemma PaddedOwnCodeRefused(s: Store, k: nat, description: Option<string>, isActive: Option<bool>, now: Time)
    requires Inv(s)
    requires k < |s.coupons|
    ensures UpdateCoupon(s, s.coupons[k].id, Some(" " + s.coupons[k].code), description, isActive, now).response
            == BadRequest(CodeExistsMessage)
  {
    var c := s.coupons[k];
    assert CouponValid(c) && IsTrimmed(c.code);
    TrimDropsPadding(c.code);
    var i := FindCoupon(s.coupons, c.id).value;
    assert s.coupons[i].id == c.id;
    assert " " + c.code != c.code by {
      assert |" " + c.code| != |c.code|;
    }
    assert HasCode(s.coupons, Trim(" " + c.code));
  }

  /** `DELETE /:id`: 404 for an unknown id, 400 for a claimed coupon;
      otherwise exactly that coupon leaves the pool. */
  function DeleteCoupon(s: Store, id: Id): (t: Transition<AdminResponse>)
    ensures t.response == NotFound(NotFoundMessage) <==> forall i | 0 <= i < |s.coupons| :: s.coupons[i].id != id
    ensures t.response == BadRequest(ClaimedNotDeletableMessage) <==>
      exists i | 0 <= i < |s.coupons| :: s.coupons[i].id == id && s.coupons[i].isClaimed
        && FindCoupon(s.coupons, id) == Some(i)
    ensures t.response in {Deleted, NotFound(NotFoundMessage), BadRequest(ClaimedNotDeletableMessage)}
    ensures t.response.Deleted? <==>
      FindCoupon(s.coupons, id).Some? && !s.coupons[FindCoupon(s.coupons, id).value].isClaimed
    ensures !t.response.Deleted? ==> t.store == s
    ensures t.response.Deleted? ==> exists k | 0 <= k < |s.coupons| ::
      && s.coupons[k].id == id && !s.coupons[k].isClaimed
      && t.store == s.(coupons := RemoveAt(s.coupons, k))
  {
    match FindCoupon(s.coupons, id)
    case None => Transition(NotFound(NotFoundMessage), s)
    case Some(k) =>
      if s.coupons[k].isClaimed then Transition(BadRequest(ClaimedNotDeletableMessage), s)
      else Transition(Deleted, s.(coupons := RemoveAt(s.coupons, k)))
  }

  /** Deleting preserves the invariant and extends the state: a claimed
      coupon, the one thing the ledger points at, is never deleted. */
  lemma DeletePreservesInv(s: Store, id: Id)
    requires Inv(s)
    ensures Inv(DeleteCoupon(s, id).store)
    ensures Extends(s, DeleteCoupon(s, id).store)
  {
    if DeleteCoupon(s, id).response.Deleted? {
      RemoveUnclaimedPreservesInv(s, FindCoupon(s.coupons, id).value);
    } else {
      ExtendsRefl(s);
    }
  }

  /** Under the invariant a deleted coupon is gone: no coupon with that id
      remains. */
  lemma DeletedIsGone(s: Store, id: Id)
    requires Inv(s)
    requires DeleteCoupon(s, id).response.Deleted?
    ensures forall i | 0 <= i < |DeleteCoupon(s, id).store.coupons| :: DeleteCoupon(s, id).store.coupons[i].id != id
  {
    var k := FindCoupon(s.coupons, id).value;
    var cs' := DeleteCoupon(s, id).store.coupons;
    forall i | 0 <= i < |cs'|
      ensures cs'[i].id != id
    {
      if i < k {
        assert cs'[i] == s.coupons[i];
      } else {
        assert cs'[i] == s.coupons[i + 1];
      }
    }
  }

  /** `GET /`: every coupon, newest first. */
  function ListCoupons(s: Store): (r: seq<Coupon>)
    ensures multiset(r) == multiset(s.coupons)
    ensures forall i, j | 0 <= i < j < |r| :: r[i].createdAt >= r[j].createdAt
  {
    SortDesc(s.coupons, (c: Coupon) => c.createdAt)
  }

  /** `GET /:id`: the coupon with its claiming ledger entry populated;
      `None` is the 404. */
  function CouponDetails(s: Store, id: Id): (r: Option<(Coupon, Option<UserClaim>)>)
    ensures r.None? <==> forall i | 0 <= i < |s.coupons| :: s.coupons[i].id != id
    ensures r.Some? ==> r.value.0 in s.coupons && r.value.0.id == id
    ensures r.Some? && r.value.1.Some? ==>
      r.value.1.value in s.claims && Some(r.value.1.value.id) == r.value.0.claimedBy
    ensures r.Some? && r.value.0.claimedBy.None? ==> r.value.1.None?
    ensures r.Some? && r.value.0.claimedBy.Some? ==>
      (r.value.1.Some? <==> exists j | 0 <= j < |s.claims| :: s.claims[j].id == r.value.0.claimedBy.value)
  {
    match FindCoupon(s.coupons, id)
    case None => None
    case Some(k) =>
      var c := s.coupons[k];
      var entry := if c.claimedBy.None? then None
                   else match FindClaim(s.claims, c.claimedBy.value)
                        case None => None
                        case Some(j) => Some(s.claims[j]);
      Some((c, entry))
  }

  /** Under the invariant, a claimed coupon's details always show the
      ledger entry that claimed it. */
  lemma DetailsShowClaim(s: Store, id: Id)
    requires Inv(s)
    requires CouponDetails(s, id).Some? && CouponDetails(s, id).value.0.isClaimed
    ensures CouponDetails(s, id).value.1.Some?
    ensures CouponDetails(s, id).value.1.value.coupon == id
  {
    var k := FindCoupon(s.coupons, id).value;
    var c := s.coupons[k];
    assert EntryFor(s.claims, c.claimedBy, c.id);
    var j :| 0 <= j < |s.claims| && c.claimedBy == Some(s.claims[j].id) && s.claims[j].coupon == c.id;
    assert FindClaim(s.claims, c.claimedBy.value).value == j;
  }

  /** `count = 5` when the request gives none; a loop `i < count` runs
      `max(count, 0)` times. */
  const DefaultTestCount: nat := 5

  function TestCount(count: Option<int>): (n: nat)
    ensures count.None? ==> n == DefaultTestCount
    ensures count.Some? && count.value >= 0 ==> n == count.value
    ensures count.Some? && count.value < 0 ==> n == 0
  {
    match count
    case None => DefaultTestCount
    case Some(c) => if c > 0 then c else 0
  }

  /** The request fields of test coupon `i`: code `TEST-` followed by the
      `i`-th random suffix, description `Test coupon <i+1>`, active. */
  function TestFields(n: nat, suffix: nat -> string): (r: seq<CouponFields>)
    ensures |r| == n
  {
    seq(n, i requires 0 <= i < n => CouponFields("TEST-" + suffix(i), "Test coupon " + DecimalString(i + 1), Some(true)))
  }

  /** A code starting with `TEST-` keeps that prefix when trimmed. */
  lemma TrimKeepsTestPrefix(rest: string)
    ensures StartsWith(Trim("TEST-" + rest), "TEST-")
  {
    var s := "TEST-" + rest;
    assert s[0] == 'T' && s[4] == '-';
    assert SkipLeading(s, 0) == 0;
    var b := SkipTrailing(s, 0, |s|);
    assert b >= 5;
    assert Trim(s)[..5] == s[..5];
  }

  /** The documents a successful test-coupon insert builds: active,
      unclaimed, coded `TEST-...` with fresh codes, numbered descriptions,
      consecutive ids. */
  lemma TestCouponsShape(s: Store, n: nat, suffix: nat -> string, now: Time)
    requires InsertMany(s, TestFields(n, suffix), now).Some?
    ensures |InsertMany(s, TestFields(n, suffix), now).value| == n
    ensures forall i | 0 <= i < n ::
      && StartsWith(InsertMany(s, TestFields(n, suffix), now).value[i].code, "TEST-")
      && InsertMany(s, TestFields(n, suffix), now).value[i].description == "Test coupon " + DecimalString(i + 1)
      && InsertMany(s, TestFields(n, suffix), now).value[i].isActive
      && !InsertMany(s, TestFields(n, suffix), now).value[i].isClaimed
      && InsertMany(s, TestFields(n, suffix), now).value[i].id == s.nextId + i
      && !HasCode(s.coupons, InsertMany(s, TestFields(n, suffix), now).value[i].code)
  {
    var fields := TestFields(n, suffix);
    var docs := InsertMany(s, fields, now).value;
    forall i | 0 <= i < n
      ensures StartsWith(docs[i].code, "TEST-")
      ensures docs[i].description == "Test coupon " + DecimalString(i + 1)
      ensures docs[i].isActive && !docs[i].isClaimed && docs[i].id == s.nextId + i
      ensures !HasCode(s.coupons, docs[i].code)
    {
      assert docs[i] == NewCoupon(s.nextId + i, fields[i], now);
      TrimKeepsTestPrefix(suffix(i));
    }
  }

  /** The test codes `TEST-<suffix(i)>` of the first `n` suffixes, after the
      trim setter, are pairwise different and none is stored yet. */
  ghost predicate FreshTestCodes(s: Store, n: nat, suffix: nat -> string) {
    && (forall i | 0 <= i < n :: !HasCode(s.coupons, Trim("TEST-" + suffix(i))))
    && (forall i, j | 0 <= i < j < n :: Trim("TEST-" + suffix(i)) != Trim("TEST-" + suffix(j)))
  }

  /** The test documents always validate (their codes start with `TEST-`
      and their descriptions are never empty), so inserting them succeeds
      exactly when their codes are fresh. */
  lemma TestInsertSucceeds(s: Store, n: nat, suffix: nat -> string, now: Time)
    ensures InsertMany(s, TestFields(n, suffix), now).Some? <==> FreshTestCodes(s, n, suffix)
  {
    var fields := TestFields(n, suffix);
    forall k | 0 <= k < n
      ensures fields[k].code == "TEST-" + suffix(k)
      ensures Trim(fields[k].code) != "" && fields[k].description != ""
    {
      TrimKeepsTestPrefix(suffix(k));
    }
  }

  /** `POST /test-coupons`: `count` generated coupons inserted together;
      the random code suffixes are a parameter. Colliding codes make the
      insert, and the route, fail with nothing stored. */
  function AddTestCoupons(s: Store, count: Option<int>, suffix: nat -> string, now: Time): (t: Transition<AdminResponse>)
    ensures t.response.TestCouponsCreated? || t.response.ServerError?
    ensures t.response.ServerError? ==> t.store == s
    ensures t.response.TestCouponsCreated? <==> FreshTestCodes(s, TestCount(count), suffix)
    ensures t.response.TestCouponsCreated? ==>
      && |t.response.coupons| == TestCount(count)
      && t.store == Appended(s, t.response.coupons)
      && forall i | 0 <= i < |t.response.coupons| ::
           && StartsWith(t.response.coupons[i].code, "TEST-")
           && t.response.coupons[i].description == "Test coupon " + DecimalString(i + 1)
           && t.response.coupons[i].isActive && !t.response.coupons[i].isClaimed
           && t.response.coupons[i].id == s.nextId + i
           && !HasCode(s.coupons, t.response.coupons[i].code)
  {
    var n := TestCount(count);
    TestInsertSucceeds(s, n, suffix, now);
    match InsertMany(s, TestFields(n, suffix), now)
    case None => Transition(ServerError, s)
    case Some(result) =>
      TestCouponsShape(s, n, suffix, now);
      Transition(TestCouponsCreated(result), Appended(s, result))
  }

  /** Adding test coupons preserves the invariant and extends the state. */
  lemma TestCouponsPreserveInv(s: Store, count: Option<int>, suffix: nat -> string, now: Time)
    requires Inv(s)
    ensures Inv(AddTestCoupons(s, count, suffix, now).store)
    ensures Extends(s, AddTestCoupons(s, count, suffix, now).store)
  {
    if AddTestCoupons(s, count, suffix, now).response.TestCouponsCreated? {
      InsertManyPreservesInv(s, TestFields(TestCount(count), suffix), now);
    } else {
      ExtendsRefl(s);
    }
  }
}

=== FILE: database.dfy ===
/** The abstract database: the coupon pool and the append-only claim ledger,
    together with the invariants that tie them together and the generic
    transitions every route is built from (append fresh coupons, replace one
    coupon, remove one coupon, record one claim). */
module Database {
  import opened Common
  import opened Models
  import opened Sequences

  /** Both collections in natural (insertion) order, and the next ObjectId
      the database would hand out. */
  datatype Store = Store(coupons: seq<Coupon>, claims: seq<UserClaim>, nextId: Id)

  /** A fresh database. */
  const Empty: Store := Store([], [], 0)

  /** No two coupons share an id. */
  ghost predicate UniqueCouponIds(cs: seq<Coupon>) {
    forall i, j | 0 <= i < j < |cs| :: cs[i].id != cs[j].id
  }

  /** The unique index on `code`. */
  predicate UniqueCodes(cs: seq<Coupon>) {
    forall i, j | 0 <= i < j < |cs| :: cs[i].code != cs[j].code
  }

  /** `isClaimed` holds exactly when `claimedBy` is set. */
  ghost predicate ClaimFlagConsistent(cs: seq<Coupon>) {
    forall i | 0 <= i < |cs| :: cs[i].isClaimed <==> cs[i].claimedBy.Some?
  }

  /** Some ledger entry has id `entry` and references coupon `couponId`. */
  ghost predicate EntryFor(ls: seq<UserClaim>, entry: Option<Id>, couponId: Id) {
    exists j | 0 <= j < |ls| :: entry == Some(ls[j].id) && ls[j].coupon == couponId
  }

  /** The coupon with id `couponId` is in the pool and claimed. */
  ghost predicate ClaimedIn(cs: seq<Coupon>, couponId: Id) {
    exists i | 0 <= i < |cs| :: cs[i].id == couponId && cs[i].isClaimed
  }

  /** A claimed coupon's back-reference names a ledger entry for that coupon. */
  ghost predicate ClaimedHaveEntry(cs: seq<Coupon>, ls: seq<UserClaim>) {
    forall i | 0 <= i < |cs| && cs[i].isClaimed :: EntryFor(ls, cs[i].claimedBy, cs[i].id)
  }

  /** Every ledger entry references a coupon still in the pool, and claimed. */
  ghost predicate EntriesPointAtClaimed(cs: seq<Coupon>, ls: seq<UserClaim>) {
    forall j | 0 <= j < |ls| :: ClaimedIn(cs, ls[j].coupon)
  }

  /** No coupon is referenced by two ledger entries. */
  ghost predicate OneEntryPerCoupon(ls: seq<UserClaim>) {
    forall i, j | 0 <= i < j < |ls| :: ls[i].coupon != ls[j].coupon
  }

  /** No two ledger entries share an id. */
  ghost predicate UniqueClaimIds(ls: seq<UserClaim>) {
    forall i, j | 0 <= i < j < |ls| :: ls[i].id != ls[j].id
  }

  /** Every id in use was handed out before `nextId`. */
  ghost predicate IdsIssued(s: Store) {
    && (forall i | 0 <= i < |s.coupons| :: s.coupons[i].id < s.nextId)
    && (forall j | 0 <= j < |s.claims| :: s.claims[j].id < s.nextId)
  }

  /** Every stored document passed schema validation, and every stored
      code went through the `trim` setter. */
  ghost predicate RecordsValid(s: Store) {
    && (forall i | 0 <= i < |s.coupons| :: CouponValid(s.coupons[i]) && IsTrimmed(s.coupons[i].code))
    && (forall j | 0 <= j < |s.claims| :: UserClaimValid(s.claims[j]))
  }

  /** The store invariant every operation preserves. */
  ghost predicate Inv(s: Store) {
    && UniqueCouponIds(s.coupons)
    && UniqueCodes(s.coupons)
    && ClaimFlagConsistent(s.coupons)
    && ClaimedHaveEntry(s.coupons, s.claims)
    && EntriesPointAtClaimed(s.coupons, s.claims)
    && OneEntryPerCoupon(s.claims)
    && UniqueClaimIds(s.claims)
    && IdsIssued(s)
    && RecordsValid(s)
  }

  /** Coupon `c` is still in `cs`, claimed by the same ledger entry. */
  ghost predicate StillClaimed(cs: seq<Coupon>, c: Coupon) {
    exists i | 0 <= i < |cs| :: cs[i].id == c.id && cs[i].isClaimed && cs[i].claimedBy == c.claimedBy
  }

  /** Every coupon claimed in `cs` is still claimed, the same way, in `cs'`. */
  ghost predicate ClaimsKept(cs: seq<Coupon>, cs': seq<Coupon>) {
    forall i | 0 <= i < |cs| && cs[i].isClaimed :: StillClaimed(cs', cs[i])
  }

  /** `s'` is a later state of `s`: the ledger has only grown at its end,
      and every coupon claimed in `s` is still present and claimed in `s'`
      by the same ledger entry. Claimed never reverts to unclaimed. */
  ghost predicate Extends(s: Store, s': Store) {
    && s.nextId <= s'.nextId
    && |s.claims| <= |s'.claims|
    && s'.claims[..|s.claims|] == s.claims
    && ClaimsKept(s.coupons, s'.coupons)
  }

  /** Position of the coupon with id `id`, if any (`findById`). */
  function FindCoupon(cs: seq<Coupon>, id: Id): (r: Option<nat>)
    ensures r.None? <==> forall i | 0 <= i < |cs| :: cs[i].id != id
    ensures r.Some? ==> r.value < |cs| && cs[r.value].id == id
  {
    if cs == [] then None
    else if cs[|cs| - 1].id == id then Some(|cs| - 1)
    else FindCoupon(cs[..|cs| - 1], id)
  }

  /** Position of the ledger entry with id `id`, if any (`populate`). */
  function FindClaim(ls: seq<UserClaim>, id: Id): (r: Option<nat>)
    ensures r.None? <==> forall j | 0 <= j < |ls| :: ls[j].id != id
    ensures r.Some? ==> r.value < |ls| && ls[r.value].id == id
  {
    if ls == [] then None
    else if ls[|ls| - 1].id == id then Some(|ls| - 1)
    else FindClaim(ls[..|ls| - 1], id)
  }

  /** Some coupon has code `code` (`findOne({ code })`). */
  predicate HasCode(cs: seq<Coupon>, code: string) {
    exists i | 0 <= i < |cs| :: cs[i].code == code
  }

  /** The empty database satisfies the invariant. */
  lemma EmptyInv()
    ensures Inv(Empty)
  {
  }

  /** `ClaimsKept` is reflexive. */
  lemma ClaimsKeptRefl(cs: seq<Coupon>)
    ensures ClaimsKept(cs, cs)
  {
    forall i | 0 <= i < |cs| && cs[i].isClaimed
      ensures StillClaimed(cs, cs[i])
    {
      assert cs[i].id == cs[i].id;
    }
  }

  /** `Extends` is reflexive. */
  lemma ExtendsRefl(s: Store)
    ensures Extends(s, s)
  {
    assert s.claims[..|s.claims|] == s.claims;
    ClaimsKeptRefl(s.coupons);
  }

  /** `Extends` is transitive, so it holds across any run of operations. */
  lemma ExtendsTrans(s1: Store, s2: Store, s3: Store)
    requires Extends(s1, s2) && Extends(s2, s3)
    ensures Extends(s1, s3)
  {
    assert s3.claims[..|s1.claims|] == s3.claims[..|s2.claims|][..|s1.claims|];
    forall i | 0 <= i < |s1.coupons| && s1.coupons[i].isClaimed
      ensures StillClaimed(s3.coupons, s1.coupons[i])
    {
      var m :| 0 <= m < |s2.coupons| && s2.coupons[m].id == s1.coupons[i].id
        && s2.coupons[m].isClaimed && s2.coupons[m].claimedBy == s1.coupons[i].claimedBy;
      assert StillClaimed(s3.coupons, s2.coupons[m]);
    }
  }

  /** Kept claims keep every ledger entry pointing at a claimed coupon. */
  lemma ClaimsKeptPreservesForwardRefs(cs: seq<Coupon>, cs': seq<Coupon>, ls: seq<UserClaim>)
    requires EntriesPointAtClaimed(cs, ls) && ClaimsKept(cs, cs')
    ensures EntriesPointAtClaimed(cs', ls)
  {
    forall j | 0 <= j < |ls|
      ensures ClaimedIn(cs', ls[j].coupon)
    {
      var i :| 0 <= i < |cs| && cs[i].id == ls[j].coupon && cs[i].isClaimed;
      assert StillClaimed(cs', cs[i]);
    }
  }

  /** A back-reference stays valid when the ledger grows. */
  lemma EntryForGrows(ls: seq<UserClaim>, extra: seq<UserClaim>, entry: Option<Id>, couponId: Id)
    requires EntryFor(ls, entry, couponId)
    ensures EntryFor(ls + extra, entry, couponId)
  {
    var j :| 0 <= j < |ls| && entry == Some(ls[j].id) && ls[j].coupon == couponId;
    assert (ls + extra)[j] == ls[j];
  }

  /** Under the invariant, an unclaimed coupon is referenced by no ledger
      entry: the claim route's `isClaimed: false` filter is what keeps a
      coupon from being claimed twice. */
  lemma UnclaimedHasNoEntry(s: Store, k: nat)
    requires Inv(s)
    requires k < |s.coupons| && !s.coupons[k].isClaimed
    ensures forall j | 0 <= j < |s.claims| :: s.claims[j].coupon != s.coupons[k].id
  {
    forall j | 0 <= j < |s.claims|
      ensures s.claims[j].coupon != s.coupons[k].id
    {
      assert ClaimedIn(s.coupons, s.claims[j].coupon);
      var i :| 0 <= i < |s.coupons| && s.coupons[i].id == s.claims[j].coupon && s.coupons[i].isClaimed;
      assert i != k;
    }
  }

  /** The ledger entries that reference coupon `id`. */
  function EntriesFor(ls: seq<UserClaim>, id: Id): (r: seq<UserClaim>)
    ensures forall e | e in r :: e in ls && e.coupon == id
    ensures forall e :: multiset(r)[e] == if e.coupon == id then multiset(ls)[e] else 0
  {
    FilterCounts(ls, (e: UserClaim) => e.coupon == id);
    Filter(ls, (e: UserClaim) => e.coupon == id)
  }

  /** With one entry per coupon, at most one entry references any coupon,
      and exactly one does when some entry does. */
  lemma {:induction false} EntriesForAtMostOne(ls: seq<UserClaim>, id: Id)
    requires OneEntryPerCoupon(ls)
    ensures |EntriesFor(ls, id)| <= 1
    ensures (exists j | 0 <= j < |ls| :: ls[j].coupon == id) ==> |EntriesFor(ls, id)| == 1
  {
    if ls != [] {
      var p := (e: UserClaim) => e.coupon == id;
      assert OneEntryPerCoupon(ls[1..]) by {
        forall a, b | 0 <= a < b < |ls[1..]|
          ensures ls[1..][a].coupon != ls[1..][b].coupon
        {
          assert ls[1..][a] == ls[a + 1] && ls[1..][b] == ls[b + 1];
        }
      }
      EntriesForAtMostOne(ls[1..], id);
      if ls[0].coupon == id {
        assert forall j | 0 <= j < |ls[1..]| :: ls[1..][j].coupon != id by {
          forall j | 0 <= j < |ls[1..]|
            ensures ls[1..][j].coupon != id
          {
            assert ls[1..][j] == ls[j + 1];
          }
        }
        FilterNone(ls[1..], p);
      } else if exists j | 0 <= j < |ls| :: ls[j].coupon == id {
        var j :| 0 <= j < |ls| && ls[j].coupon == id;
        assert ls[1..][j - 1] == ls[j];
      }
    }
  }

  /** The data-model promise: a coupon in the pool is claimed exactly when
      exactly one ledger entry references it (and otherwise none does). */
  lemma ClaimedIffExactlyOneEntry(s: Store, k: nat)
    requires Inv(s)
    requires k < |s.coupons|
    ensures s.coupons[k].isClaimed <==> |EntriesFor(s.claims, s.coupons[k].id)| == 1
    ensures !s.coupons[k].isClaimed ==> EntriesFor(s.claims, s.coupons[k].id) == []
  {
    var id := s.coupons[k].id;
    EntriesForAtMostOne(s.claims, id);
    if s.coupons[k].isClaimed {
      assert EntryFor(s.claims, s.coupons[k].claimedBy, id);
    } else {
      UnclaimedHasNoEntry(s, k);
      FilterNone(s.claims, (e: UserClaim) => e.coupon == id);
    }
  }

  /** Fresh coupons appended to the pool: unclaimed, valid, with ids issued
      in `[s.nextId, nextId')`, pairwise different. */
  ghost predicate FreshCoupons(s: Store, added: seq<Coupon>, nextId': Id) {
    && s.nextId <= nextId'
    && (forall k | 0 <= k < |added| ::
         && !added[k].isClaimed && added[k].claimedBy.None?
         && CouponValid(added[k]) && IsTrimmed(added[k].code)
         && s.nextId <= added[k].id < nextId')
    && UniqueCouponIds(added)
  }

  lemma AppendKeepsIds(s: Store, added: seq<Coupon>, nextId': Id)
    requires UniqueCouponIds(s.coupons) && IdsIssued(s) && FreshCoupons(s, added, nextId')
    ensures UniqueCouponIds(s.coupons + added)
    ensures IdsIssued(Store(s.coupons + added, s.claims, nextId'))
  {
    var cs' := s.coupons + added;
    var n := |s.coupons|;
    forall i, j | 0 <= i < j < |cs'|
      ensures cs'[i].id != cs'[j].id
    {
      if j >= n && i < n {
        assert cs'[i] == s.coupons[i] && cs'[j] == added[j - n];
      } else if i >= n {
        assert cs'[i] == added[i - n] && cs'[j] == added[j - n];
      }
    }
    forall i | 0 <= i < |cs'|
      ensures cs'[i].id < nextId'
    {
      if i >= n {
        assert cs'[i] == added[i - n];
      }
    }
  }

  lemma AppendKeepsFlagsAndRecords(s: Store, added: seq<Coupon>, nextId': Id)
    requires ClaimFlagConsistent(s.coupons) && RecordsValid(s) && FreshCoupons(s, added, nextId')
    ensures ClaimFlagConsistent(s.coupons + added)
    ensures RecordsValid(Store(s.coupons + added, s.claims, nextId'))
  {
    var cs' := s.coupons + added;
    var n := |s.coupons|;
    forall i | 0 <= i < |cs'|
      ensures (cs'[i].isClaimed <==> cs'[i].claimedBy.Some?) && CouponValid(cs'[i]) && IsTrimmed(cs'[i].code)
    {
      if i < n {
        assert cs'[i] == s.coupons[i];
      } else {
        assert cs'[i] == added[i - n];
      }
    }
  }

  lemma AppendKeepsClaims(s: Store, added: seq<Coupon>, nextId': Id)
    requires ClaimedHaveEntry(s.coupons, s.claims) && FreshCoupons(s, added, nextId')
    ensures ClaimedHaveEntry(s.coupons + added, s.claims)
    ensures ClaimsKept(s.coupons, s.coupons + added)
  {
    var cs' := s.coupons + added;
    var n := |s.coupons|;
    forall i | 0 <= i < |cs'| && cs'[i].isClaimed
      ensures EntryFor(s.claims, cs'[i].claimedBy, cs'[i].id)
    {
      assert cs'[i] == s.coupons[i];
    }
    forall i | 0 <= i < n && s.coupons[i].isClaimed
      ensures StillClaimed(cs', s.coupons[i])
    {
      assert cs'[i] == s.coupons[i];
    }
  }

  /** Appending freshly created, unclaimed, valid coupons whose ids are new
      and whose codes keep the unique index preserves the invariant and
      extends the state. */
  lemma AppendCouponsPreservesInv(s: Store, added: seq<Coupon>, nextId': Id)
    requires Inv(s)
    requires FreshCoupons(s, added, nextId')
    requires UniqueCodes(s.coupons + added)
    ensures Inv(Store(s.coupons + added, s.claims, nextId'))
    ensures Extends(s, Store(s.coupons + added, s.claims, nextId'))
  {
    var s' := Store(s.coupons + added, s.claims, nextId');
    AppendKeepsIds(s, added, nextId');
    AppendKeepsFlagsAndRecords(s, added, nextId');
    AppendKeepsClaims(s, added, nextId');
    ClaimsKeptPreservesForwardRefs(s.coupons, s'.coupons, s.claims);
    assert s'.claims[..|s.claims|] == s.claims;
  }

  /** Replacing one coupon by a valid version with the same id and the same
      claim fields, whose code no other coupon holds, preserves the
      invariant and extends the state. */
  lemma ReplaceCouponPreservesInv(s: Store, k: nat, c: Coupon)
    requires Inv(s)
    requires k < |s.coupons|
    requires c.id == s.coupons[k].id
    requires c.isClaimed == s.coupons[k].isClaimed && c.claimedBy == s.coupons[k].claimedBy
    requires CouponValid(c) && IsTrimmed(c.code)
    requires forall i | 0 <= i < |s.coupons| && i != k :: s.coupons[i].code != c.code
    ensures Inv(s.(coupons := s.coupons[k := c]))
    ensures Extends(s, s.(coupons := s.coupons[k := c]))
  {
    var cs' := s.coupons[k := c];
    forall i | 0 <= i < |s.coupons| && s.coupons[i].isClaimed
      ensures StillClaimed(cs', s.coupons[i])
    {
      assert cs'[i].id == s.coupons[i].id;
    }
    ClaimsKeptPreservesForwardRefs(s.coupons, cs', s.claims);
    assert s.claims[..|s.claims|] == s.claims;
  }

  /** The pool with the coupon at position `k` removed (`deleteOne`). */
  function RemoveAt(cs: seq<Coupon>, k: nat): (r: seq<Coupon>)
    requires k < |cs|
    ensures |r| == |cs| - 1
    ensures forall i | 0 <= i < k :: r[i] == cs[i]
    ensures forall i | k <= i < |r| :: r[i] == cs[i + 1]
  {
    cs[..k] + cs[k + 1..]
  }

  /** Removing a coupon keeps ids and codes unique. */
  lemma RemoveKeepsUnique(cs: seq<Coupon>, k: nat)
    requires k < |cs|
    requires UniqueCouponIds(cs) && UniqueCodes(cs)
    ensures UniqueCouponIds(RemoveAt(cs, k)) && UniqueCodes(RemoveAt(cs, k))
  {
    var cs' := RemoveAt(cs, k);
    forall i, j | 0 <= i < j < |cs'|
      ensures cs'[i].id != cs'[j].id && cs'[i].code != cs'[j].code
    {
      var i0 := if i < k then i else i + 1;
      var j0 := if j < k then j else j + 1;
      assert cs'[i] == cs[i0] && cs'[j] == cs[j0] && i0 < j0;
    }
  }

  /** Removing a coupon keeps flags consistent, documents valid and ids
      issued. */
  lemma RemoveKeepsRecords(s: Store, k: nat)
    requires Inv(s)
    requires k < |s.coupons|
    ensures ClaimFlagConsistent(RemoveAt(s.coupons, k))
    ensures RecordsValid(s.(coupons := RemoveAt(s.coupons, k)))
    ensures IdsIssued(s.(coupons := RemoveAt(s.coupons, k)))
  {
    var cs' := RemoveAt(s.coupons, k);
    assert forall i | 0 <= i < |cs'| :: cs'[i] in s.coupons;
  }

  /** Removing an unclaimed coupon keeps every claimed coupon, with its
      back-reference, in the pool. */
  lemma RemoveKeepsClaims(s: Store, k: nat)
    requires Inv(s)
    requires k < |s.coupons| && !s.coupons[k].isClaimed
    ensures ClaimedHaveEntry(RemoveAt(s.coupons, k), s.claims)
    ensures ClaimsKept(s.coupons, RemoveAt(s.coupons, k))
  {
    var cs := s.coupons;
    var cs' := RemoveAt(cs, k);
    assert ClaimedHaveEntry(cs', s.claims) by {
      forall i | 0 <= i < |cs'| && cs'[i].isClaimed
        ensures EntryFor(s.claims, cs'[i].claimedBy, cs'[i].id)
      {
        assert cs'[i] == cs[if i < k then i else i + 1];
      }
    }
    forall i | 0 <= i < |cs| && cs[i].isClaimed
      ensures StillClaimed(cs', cs[i])
    {
      var i' := if i < k then i else i - 1;
      assert cs'[i'] == cs[i];
    }
  }

  /** Removing an unclaimed coupon preserves the invariant and extends the
      state: no ledger entry can reference it. */
  lemma RemoveUnclaimedPreservesInv(s: Store, k: nat)
    requires Inv(s)
    requires k < |s.coupons| && !s.coupons[k].isClaimed
    ensures Inv(s.(coupons := RemoveAt(s.coupons, k)))
    ensures Extends(s, s.(coupons := RemoveAt(s.coupons, k)))
  {
    RemoveKeepsUnique(s.coupons, k);
    RemoveKeepsRecords(s, k);
    RemoveKeepsClaims(s, k);
    ClaimsKeptPreservesForwardRefs(s.coupons, RemoveAt(s.coupons, k), s.claims);
    assert s.claims[..|s.claims|] == s.claims;
  }

  /** Coupon `c` flagged as claimed by ledger entry `entryId` and saved at
      `now`; its code, description, activity and creation time are kept. */
  function MarkClaimed(c: Coupon, entryId: Id, now: Time): (c': Coupon)
    ensures c'.isClaimed && c'.claimedBy == Some(entryId) && c'.updatedAt == now
    ensures c'.id == c.id && c'.code == c.code && c'.description == c.description
    ensures c'.isActive == c.isActive && c'.createdAt == c.createdAt
  {
    Saved(c.(isClaimed := true, claimedBy := Some(entryId)), now)
  }

  lemma RecordClaimKeepsLedger(s: Store, k: nat, e: UserClaim)
    requires Inv(s)
    requires k < |s.coupons| && !s.coupons[k].isClaimed
    requires e.id == s.nextId && e.coupon == s.coupons[k].id && UserClaimValid(e)
    ensures OneEntryPerCoupon(s.claims + [e]) && UniqueClaimIds(s.claims + [e])
    ensures RecordsValid(Store(s.coupons, s.claims + [e], s.nextId + 1))
  {
    var ls' := s.claims + [e];
    var n := |s.claims|;
    UnclaimedHasNoEntry(s, k);
    forall i, j | 0 <= i < j < |ls'|
      ensures ls'[i].coupon != ls'[j].coupon && ls'[i].id != ls'[j].id
    {
      assert ls'[i] == s.claims[i];
      if j < n {
        assert ls'[j] == s.claims[j];
      }
    }
    forall j | 0 <= j < |ls'|
      ensures UserClaimValid(ls'[j])
    {
      if j < n {
        assert ls'[j] == s.claims[j];
      }
    }
  }

  lemma RecordClaimKeepsLinks(s: Store, k: nat, e: UserClaim, now: Time)
    requires Inv(s)
    requires k < |s.coupons| && !s.coupons[k].isClaimed
    requires e.id == s.nextId && e.coupon == s.coupons[k].id
    ensures ClaimedHaveEntry(s.coupons[k := MarkClaimed(s.coupons[k], e.id, now)], s.claims + [e])
    ensures EntriesPointAtClaimed(s.coupons[k := MarkClaimed(s.coupons[k], e.id, now)], s.claims + [e])
    ensures ClaimsKept(s.coupons, s.coupons[k := MarkClaimed(s.coupons[k], e.id, now)])
  {
    var cs' := s.coupons[k := MarkClaimed(s.coupons[k], e.id, now)];
    var ls' := s.claims + [e];
    var n := |s.claims|;
    assert ls'[n] == e;
    forall i | 0 <= i < |cs'| && cs'[i].isClaimed
      ensures EntryFor(ls', cs'[i].claimedBy, cs'[i].id)
    {
      if i != k {
        EntryForGrows(s.claims, [e], s.coupons[i].claimedBy, s.coupons[i].id);
      }
    }
    forall i | 0 <= i < |s.coupons| && s.coupons[i].isClaimed
      ensures StillClaimed(cs', s.coupons[i])
    {
      assert cs'[i] == s.coupons[i];
    }
    ClaimsKeptPreservesForwardRefs(s.coupons, cs', s.claims);
    forall j | 0 <= j < |ls'|
      ensures ClaimedIn(cs', ls'[j].coupon)
    {
      if j < n {
        assert ls'[j] == s.claims[j];
      } else {
        assert cs'[k].id == ls'[j].coupon;
      }
    }
  }

  /** Flagging one coupon as claimed keeps ids and codes unique, the flag
      consistent and every coupon valid. */
  lemma RecordClaimKeepsPool(s: Store, k: nat, entryId: Id, now: Time)
    requires Inv(s)
    requires k < |s.coupons|
    ensures UniqueCouponIds(s.coupons[k := MarkClaimed(s.coupons[k], entryId, now)])
    ensures UniqueCodes(s.coupons[k := MarkClaimed(s.coupons[k], entryId, now)])
    ensures ClaimFlagConsistent(s.coupons[k := MarkClaimed(s.coupons[k], entryId, now)])
    ensures RecordsValid(s.(coupons := s.coupons[k := MarkClaimed(s.coupons[k], entryId, now)]))
    ensures IdsIssued(s.(coupons := s.coupons[k := MarkClaimed(s.coupons[k], entryId, now)]))
  {
    var cs := s.coupons;
    var cs' := cs[k := MarkClaimed(cs[k], entryId, now)];
    assert forall i | 0 <= i < |cs| ::
      cs'[i].id == cs[i].id && cs'[i].code == cs[i].code && cs'[i].description == cs[i].description;
  }

  /** Recording a valid claim for an unclaimed coupon -- appending the
      ledger entry under a fresh id and flagging the coupon with a
      back-reference to it -- preserves the invariant and extends the state. */
  lemma RecordClaimPreservesInv(s: Store, k: nat, e: UserClaim, now: Time)
    requires Inv(s)
    requires k < |s.coupons| && !s.coupons[k].isClaimed
    requires e.id == s.nextId && e.coupon == s.coupons[k].id && UserClaimValid(e)
    ensures Inv(Store(s.coupons[k := MarkClaimed(s.coupons[k], e.id, now)], s.claims + [e], s.nextId + 1))
    ensures Extends(s, Store(s.coupons[k := MarkClaimed(s.coupons[k], e.id, now)], s.claims + [e], s.nextId + 1))
  {
    var s' := Store(s.coupons[k := MarkClaimed(s.coupons[k], e.id, now)], s.claims + [e], s.nextId + 1);
    RecordClaimKeepsPool(s, k, e.id, now);
    RecordClaimKeepsLedger(s, k, e);
    RecordClaimKeepsLinks(s, k, e, now);
    assert s'.claims[..|s.claims|] == s.claims;
    assert IdsIssued(s') by {
      assert forall j | 0 <= j < |s.claims| :: s'.claims[j] == s.claims[j];
    }
  }
}

=== FILE: eligibility.dfy ===
/** The claim-eligibility check (`checkPreviousClaims`): a device fingerprint
    that already has a claim inside the 24-hour cooldown window is refused,
    with the time at which it may claim again. The IP address takes no part
    in the decision. */
module Eligibility {
  import opened Common
  import opened Models

  /** 24 hours in milliseconds. */
  const CooldownMs: nat := 24 * 60 * 60 * 1000

  /** The cooldown middleware's verdict: let the request through, or answer 429 with
      `nextAvailableTime`. */
  datatype Verdict = Allow | Deny(nextAvailableTime: int)

  /** Entry `e` matches the query `{ browserFingerprint, claimedAt: { $gte: cutoff } }`
      with `cutoff = now - cooldown`: same fingerprint, claimed at or after
      the cutoff (inclusive). */
  predicate Recent(e: UserClaim, fingerprint: string, now: Time) {
    e.browserFingerprint == fingerprint && e.claimedAt >= now - CooldownMs
  }

  /** The first ledger entry (in natural order) matching the query, as
      `findOne` returns it. */
  function FindRecent(ls: seq<UserClaim>, fingerprint: string, now: Time): (r: Option<nat>)
    ensures r.None? <==> forall j | 0 <= j < |ls| :: !Recent(ls[j], fingerprint, now)
    ensures r.Some? ==> r.value < |ls| && Recent(ls[r.value], fingerprint, now)
    ensures r.Some? ==> forall j | 0 <= j < r.value :: !Recent(ls[j], fingerprint, now)
  {
    if ls == [] then None
    else if Recent(ls[0], fingerprint, now) then Some(0)
    else
      var r := FindRecent(ls[1..], fingerprint, now);
      assert forall j | 1 <= j < |ls| :: ls[j] == ls[1..][j - 1];
      if r.Some? then Some(r.value + 1) else None
  }

  /** `checkPreviousClaims`: refuses exactly when some entry with this
      fingerprint lies inside the cooldown window; the refusal names the end
      of that entry's window, which is never in the past. */
  function CheckPreviousClaims(ls: seq<UserClaim>, fingerprint: string, now: Time): (v: Verdict)
    ensures v.Deny? <==> exists j | 0 <= j < |ls| :: Recent(ls[j], fingerprint, now)
    ensures v.Deny? ==> exists j | 0 <= j < |ls| ::
      Recent(ls[j], fingerprint, now) && v.nextAvailableTime == ls[j].claimedAt + CooldownMs
    ensures v.Deny? ==> v.nextAvailableTime >= now
  {
    match FindRecent(ls, fingerprint, now)
    case None => Allow
    case Some(j) => Deny(ls[j].claimedAt + CooldownMs)
  }

  /** The window is inclusive: a claim made exactly one cooldown ago still
      blocks, one made a millisecond earlier does not count. */
  lemma CooldownBoundary(e: UserClaim, now: Time)
    ensures e.claimedAt == now - CooldownMs ==> CheckPreviousClaims([e], e.browserFingerprint, now).Deny?
    ensures e.claimedAt < now - CooldownMs ==> CheckPreviousClaims([e], e.browserFingerprint, now) == Allow
  {
    assert [e][0] == e;
  }

  /** The IP address does not take part: two ledgers that agree on every
      entry's fingerprint and claim time get the same verdict, whatever their
      IP addresses. */
  lemma {:induction false} IpAddressIgnored(ls: seq<UserClaim>, ls': seq<UserClaim>, fingerprint: string, now: Time)
    requires |ls| == |ls'|
    requires forall j | 0 <= j < |ls| ::
      ls[j].browserFingerprint == ls'[j].browserFingerprint && ls[j].claimedAt == ls'[j].claimedAt
    ensures CheckPreviousClaims(ls, fingerprint, now) == CheckPreviousClaims(ls', fingerprint, now)
  {
    FindRecentIgnoresIp(ls, ls', fingerprint, now);
  }

  lemma FindRecentIgnoresIp(ls: seq<UserClaim>, ls': seq<UserClaim>, fingerprint: string, now: Time)
    requires |ls| == |ls'|
    requires forall j | 0 <= j < |ls| ::
      ls[j].browserFingerprint == ls'[j].browserFingerprint && ls[j].claimedAt == ls'[j].claimedAt
    ensures FindRecent(ls, fingerprint, now) == FindRecent(ls', fingerprint, now)
  {
    assert forall j | 0 <= j < |ls| :: Recent(ls[j], fingerprint, now) == Recent(ls'[j], fingerprint, now);
    var r := FindRecent(ls, fingerprint, now);
    var r' := FindRecent(ls', fingerprint, now);
    if r.Some? && r'.Some? {
      assert !(r.value < r'.value) && !(r'.value < r.value);
    }
  }

  /** Entries of other devices never cause a refusal, even from the same IP:
      adding them to the ledger leaves the verdict unchanged. */
  lemma OtherDevicesIgnored(ls: seq<UserClaim>, others: seq<UserClaim>, fingerprint: string, now: Time)
    requires forall j | 0 <= j < |others| :: others[j].browserFingerprint != fingerprint
    ensures CheckPreviousClaims(ls + others, fingerprint, now).Deny? == CheckPreviousClaims(ls, fingerprint, now).Deny?
  {
    var all := ls + others;
    if CheckPreviousClaims(all, fingerprint, now).Deny? {
      var j :| 0 <= j < |all| && Recent(all[j], fingerprint, now);
      assert j < |ls| && all[j] == ls[j];
    }
    if CheckPreviousClaims(ls, fingerprint, now).Deny? {
      var j :| 0 <= j < |ls| && Recent(ls[j], fingerprint, now);
      assert all[j] == ls[j];
    }
  }

  /** A fingerprint that appears nowhere in the ledger is always let
      through. The source mints a fresh fingerprint for every request, so
      in practice the cooldown never refuses. */
  lemma FreshFingerprintAllowed(ls: seq<UserClaim>, fingerprint: string, now: Time)
    requires forall j | 0 <= j < |ls| :: ls[j].browserFingerprint != fingerprint
    ensures CheckPreviousClaims(ls, fingerprint, now) == Allow
  {
  }
}

=== FILE: ledger.dfy ===
/** The server as a whole: a request is either the public claim (behind
    `captureUserInfo` and the eligibility check) or an admin request behind
    `authenticateAdmin`, and a run is a sequence of requests applied one
    after another. The read-only routes cannot change the state, so only
    the routes that write appear here. */
module Ledger {
  import opened Common
  import opened Models
  import opened Database
  import opened CouponRoutes
  import opened Auth

  /** The admin routes that write to the coupon pool, with their inputs. */
  datatype AdminOp =
    | Create(fields: CouponFields)
    | Batch(coupons: Option<seq<CouponFields>>)
    | Update(id: Id, code: Option<string>, description: Option<string>, isActive: Option<bool>)
    | Delete(id: Id)
    | AddTests(count: Option<int>, suffix: nat -> string)

  /** A request with the credentials it carries. */
  datatype Request =
    | ClaimRequest(user: UserInfo)
    | AdminRequest(cookie: Option<string>, authorization: Option<string>, op: AdminOp)

  /** What the server answers: a claim response, an admin response, or the
      401 of `authenticateAdmin`. */
  datatype Response =
    | ClaimReply(claim: ClaimResponse)
    | AdminReply(admin: AdminResponse)
    | Refused(outcome: AuthOutcome)

  /** A request together with the clock reading the server takes for it. */
  datatype Step = Step(request: Request, now: Time)

  /** The admin route `op` names. */
  function Apply(s: Store, op: AdminOp, now: Time): Transition<AdminResponse> {
    match op
    case Create(f) => CreateCoupon(s, f, now)
    case Batch(coupons) => BatchCreate(s, coupons, now)
    case Update(id, code, description, isActive) => UpdateCoupon(s, id, code, description, isActive, now)
    case Delete(id) => DeleteCoupon(s, id)
    case AddTests(count, suffix) => AddTestCoupons(s, count, suffix, now)
  }

  /** One request. An admin request whose credentials `authenticateAdmin`
      does not admit is refused with 401 before its route runs, and the
      state is untouched; `verify` stands for the JWT verifier. */
  function Handle(s: Store, req: Request, verify: string -> Option<Id>, now: Time): (t: Transition<Response>)
    ensures t.response.Refused? <==>
      req.AdminRequest? && !AuthenticateAdmin(req.cookie, req.authorization, verify).Admitted?
    ensures t.response.Refused? ==>
      && t.store == s
      && t.response.outcome == AuthenticateAdmin(req.cookie, req.authorization, verify)
      && (t.response.outcome == AuthenticationRequired <==> ExtractToken(req.cookie, req.authorization).None?)
    ensures req.ClaimRequest? ==> t.response.ClaimReply?
    ensures req.AdminRequest? && !t.response.Refused? ==> t.response.AdminReply?
    ensures req.ClaimRequest? ==>
      t == Transition(ClaimReply(ClaimRoute(s, req.user, now).response), ClaimRoute(s, req.user, now).store)
    ensures req.AdminRequest? && AuthenticateAdmin(req.cookie, req.authorization, verify).Admitted? ==>
      t == Transition(AdminReply(Apply(s, req.op, now).response), Apply(s, req.op, now).store)
  {
    match req
    case ClaimRequest(user) =>
      var c := ClaimRoute(s, user, now);
      Transition(ClaimReply(c.response), c.store)
    case AdminRequest(cookie, authorization, op) =>
      match AuthenticateAdmin(cookie, authorization, verify)
      case Admitted(_) =>
        var a := Apply(s, op, now);
        Transition(AdminReply(a.response), a.store)
      case outcome => Transition(Refused(outcome), s)
  }

  /** The state after the requests of `steps`, in order. */
  function Run(s: Store, steps: seq<Step>, verify: string -> Option<Id>): Store
    decreases |steps|
  {
    if steps == [] then s
    else Run(Handle(s, steps[0].request, verify, steps[0].now).store, steps[1..], verify)
  }

  /** Every admin route keeps the invariant and extends the state. */
  lemma ApplyPreservesInv(s: Store, op: AdminOp, now: Time)
    requires Inv(s)
    ensures Inv(Apply(s, op, now).store)
    ensures Extends(s, Apply(s, op, now).store)
  {
    match op
    case Create(f) => CreatePreservesInv(s, f, now);
    case Batch(coupons) => BatchPreservesInv(s, coupons, now);
    case Update(id, code, description, isActive) => UpdatePreservesInv(s, id, code, description, isActive, now);
    case Delete(id) => DeletePreservesInv(s, id);
    case AddTests(count, suffix) => TestCouponsPreserveInv(s, count, suffix, now);
  }

  /** Every request keeps the invariant and extends the state. */
  lemma HandlePreservesInv(s: Store, req: Request, verify: string -> Option<Id>, now: Time)
    requires Inv(s)
    ensures Inv(Handle(s, req, verify, now).store)
    ensures Extends(s, Handle(s, req, verify, now).store)
  {
    match req
    case ClaimRequest(user) =>
      ClaimPreservesInv(s, user, now);
    case AdminRequest(cookie, authorization, op) =>
      if AuthenticateAdmin(cookie, authorization, verify).Admitted? {
        ApplyPreservesInv(s, op, now);
      } else {
        ExtendsRefl(s);
      }
  }

  /** Any run keeps the invariant and only extends the state: the ledger
      grows at its end and claimed coupons stay claimed by the same entry. */
  lemma {:induction false} RunPreservesInv(s: Store, steps: seq<Step>, verify: string -> Option<Id>)
    requires Inv(s)
    ensures Inv(Run(s, steps, verify))
    ensures Extends(s, Run(s, steps, verify))
    decreases |steps|
  {
    if steps == [] {
      ExtendsRefl(s);
    } else {
      var s1 := Handle(s, steps[0].request, verify, steps[0].now).store;
      HandlePreservesInv(s, steps[0].request, verify, steps[0].now);
      RunPreservesInv(s1, steps[1..], verify);
      ExtendsTrans(s, s1, Run(s1, steps[1..], verify));
    }
  }

  /** Every state reachable from the empty database satisfies the
      invariant; in particular no coupon is ever claimed by two ledger
      entries, every entry names a claimed coupon, and codes stay unique. */
  lemma ReachableInv(steps: seq<Step>, verify: string -> Option<Id>)
    ensures Inv(Run(Empty, steps, verify))
    ensures forall i, j | 0 <= i < j < |Run(Empty, steps, verify).claims| ::
      Run(Empty, steps, verify).claims[i].coupon != Run(Empty, steps, verify).claims[j].coupon
    ensures UniqueCodes(Run(Empty, steps, verify).coupons)
  {
    EmptyInv();
    RunPreservesInv(Empty, steps, verify);
  }

  /** Running more requests never rewrites the ledger: the ledger after a
      run is a prefix of the ledger after the same run followed by more
      requests. */
  lemma RunAppendsToLedger(s: Store, steps: seq<Step>, more: seq<Step>, verify: string -> Option<Id>)
    requires Inv(s)
    ensures |Run(s, steps, verify).claims| <= |Run(Run(s, steps, verify), more, verify).claims|
    ensures Run(Run(s, steps, verify), more, verify).claims[..|Run(s, steps, verify).claims|]
            == Run(s, steps, verify).claims
  {
    RunPreservesInv(s, steps, verify);
    RunPreservesInv(Run(s, steps, verify), more, verify);
  }

  /** A run of admin requests the authenticator refuses changes nothing. */
  lemma {:induction false} RefusedRunChangesNothing(s: Store, steps: seq<Step>, verify: string -> Option<Id>)
    requires forall i | 0 <= i < |steps| ::
      && steps[i].request.AdminRequest?
      && !AuthenticateAdmin(steps[i].request.cookie, steps[i].request.authorization, verify).Admitted?
    ensures Run(s, steps, verify) == s
    decreases |steps|
  {
    if steps != [] {
      RefusedRunChangesNothing(s, steps[1..], verify);
    }
  }

  /** Without credentials no admin request gets through: no cookie and no
      authorization header is "Authentication required", whatever the
      verifier would accept. */
  lemma NoCredentialsRefused(s: Store, op: AdminOp, verify: string -> Option<Id>, now: Time)
    ensures Handle(s, AdminRequest(None, None, op), verify, now)
            == Transition(Refused(AuthenticationRequired), s)
  {
  }
}

=== FILE: models.dfy ===
/** The two record schemas: a Coupon in the pool and a UserClaim in the
    claim ledger, with the schema defaults, the `trim` setter on the coupon
    code, the `required` validators and the pre-save hook that refreshes
    `updatedAt`. */
module Models {
  import opened Common

  /** A coupon document. `claimedBy` is the id of the ledger entry that
      claimed it (`null` until then). */
  datatype Coupon = Coupon(
    id: Id,
    code: string,
    description: string,
    isActive: bool,
    isClaimed: bool,
    claimedBy: Option<Id>,
    createdAt: Time,
    updatedAt: Time)

  /** A claim-ledger document. The schema puts no uniqueness constraint on
      `coupon`, and its (ipAddress, browserFingerprint) index is not unique. */
  datatype UserClaim = UserClaim(
    id: Id,
    ipAddress: string,
    browserFingerprint: string,
    coupon: Id,
    claimedAt: Time)

  /** The fields a request supplies for a new coupon, before the schema
      applies its setter and defaults; `isActive` may be omitted. */
  datatype CouponFields = CouponFields(code: string, description: string, isActive: Option<bool>)

  /** Mongoose's `required` validator on strings: present and non-empty. */
  predicate Present(s: string) {
    s != ""
  }

  /** A coupon document passes schema validation: `code` and `description`
      are required. */
  predicate CouponValid(c: Coupon) {
    Present(c.code) && Present(c.description)
  }

  /** A ledger document passes schema validation: `ipAddress` and
      `browserFingerprint` are required (the coupon reference always is set). */
  predicate UserClaimValid(e: UserClaim) {
    Present(e.ipAddress) && Present(e.browserFingerprint)
  }

  /** `new Coupon({...})` at time `now` with id `id`: the code passes
      through the `trim` setter, `isActive` defaults to true, the coupon
      starts unclaimed, and both timestamps default to `now`. */
  function NewCoupon(id: Id, f: CouponFields, now: Time): (c: Coupon)
    ensures c.id == id && c.description == f.description
    ensures c.code == Trim(f.code) && IsTrimmed(c.code)
    ensures f.isActive.None? ==> c.isActive
    ensures f.isActive.Some? ==> c.isActive == f.isActive.value
    ensures !c.isClaimed && c.claimedBy.None?
    ensures c.createdAt == now && c.updatedAt == now
  {
    Coupon(id, Trim(f.code), f.description, if f.isActive.Some? then f.isActive.value else true, false, None, now, now)
  }

  /** A new coupon validates exactly when its trimmed code and its
      description are non-empty. */
  lemma NewCouponValid(id: Id, f: CouponFields, now: Time)
    ensures CouponValid(NewCoupon(id, f, now)) <==> Trim(f.code) != "" && f.description != ""
  {
  }

  /** `new UserClaim({...})` at time `now`: `claimedAt` defaults to the
      creation time. */
  function NewUserClaim(id: Id, ipAddress: string, fingerprint: string, coupon: Id, now: Time): (e: UserClaim)
    ensures e.id == id && e.coupon == coupon && e.claimedAt == now
    ensures e.ipAddress == ipAddress && e.browserFingerprint == fingerprint
  {
    UserClaim(id, ipAddress, fingerprint, coupon, now)
  }

  /** The pre-save hook: every save stamps `updatedAt` with the current time
      and changes nothing else. */
  function Saved(c: Coupon, now: Time): (c': Coupon)
    ensures c'.updatedAt == now
    ensures c'.id == c.id && c'.code == c.code && c'.description == c.description
    ensures c'.isActive == c.isActive && c'.isClaimed == c.isClaimed
    ensures c'.claimedBy == c.claimedBy && c'.createdAt == c.createdAt
  {
    c.(updatedAt := now)
  }
}

=== FILE: sequences.dfy ===
/** The collection operations the database performs for the routes: filtering
    by a query predicate, counting matches, sorting by a timestamp key in
    descending order (`.sort({ field: -1 })`) and taking distinct values
    (`.distinct(field)`). */
module Sequences {

  /** `xs` is ordered by `key`, largest first. */
  ghost predicate SortedDesc<T>(xs: seq<T>, key: T -> int) {
    forall i, j | 0 <= i < j < |xs| :: key(xs[i]) >= key(xs[j])
  }

  /** Inserts `x` into a list already sorted by `key` (largest first). */
  function InsertDesc<T(==)>(x: T, xs: seq<T>, key: T -> int): (r: seq<T>)
    requires SortedDesc(xs, key)
    ensures SortedDesc(r, key)
    ensures multiset(r) == multiset(xs) + multiset{x}
    ensures |r| == |xs| + 1
    ensures r[0] == x || (xs != [] && r[0] == xs[0])
  {
    if xs == [] || key(x) >= key(xs[0]) then
      [x] + xs
    else
      var rest := InsertDesc(x, xs[1..], key);
      assert xs == [xs[0]] + xs[1..];
      assert key(rest[0]) <= key(xs[0]);
      [xs[0]] + rest
  }

  /** Sorts by `key`, largest first: the result is a permutation of `xs`.
      Elements with equal keys may come in any order, as with the
      database's sort. */
  function SortDesc<T(==)>(xs: seq<T>, key: T -> int): (r: seq<T>)
    ensures SortedDesc(r, key)
    ensures multiset(r) == multiset(xs)
    ensures |r| == |xs|
  {
    if xs == [] then []
    else
      assert xs == [xs[0]] + xs[1..];
      InsertDesc(xs[0], SortDesc(xs[1..], key), key)
  }

  /** The elements of `xs` satisfying `p`, in their original order and with
      their multiplicities: the result of a `find(filter)` query. */
  function Filter<T(!new)>(xs: seq<T>, p: T -> bool): (r: seq<T>)
    ensures |r| <= |xs|
    ensures forall x | x in r :: x in xs && p(x)
  {
    if xs == [] then []
    else
      if p(xs[0]) then [xs[0]] + Filter(xs[1..], p) else Filter(xs[1..], p)
  }

  /** The filter keeps every element satisfying `p` exactly as often as it
      occurs, and nothing else. */
  lemma {:induction false} FilterCounts<T(!new)>(xs: seq<T>, p: T -> bool)
    ensures forall x :: multiset(Filter(xs, p))[x] == if p(x) then multiset(xs)[x] else 0
  {
    if xs != [] {
      assert xs == [xs[0]] + xs[1..];
      FilterCounts(xs[1..], p);
    }
  }

  /** A filter whose predicate is weaker keeps at least as many elements. */
  lemma {:induction false} FilterMonotone<T(!new)>(xs: seq<T>, p: T -> bool, q: T -> bool)
    requires forall x | x in xs :: p(x) ==> q(x)
    ensures |Filter(xs, p)| <= |Filter(xs, q)|
  {
    if xs != [] {
      FilterMonotone(xs[1..], p, q);
    }
  }

  /** A filter every element passes keeps the whole sequence. */
  lemma {:induction false} FilterAll<T(!new)>(xs: seq<T>, p: T -> bool)
    requires forall x | x in xs :: p(x)
    ensures Filter(xs, p) == xs
  {
    if xs != [] {
      FilterAll(xs[1..], p);
    }
  }

  /** A filter no element passes keeps nothing. */
  lemma {:induction false} FilterNone<T(!new)>(xs: seq<T>, p: T -> bool)
    requires forall x | x in xs :: !p(x)
    ensures Filter(xs, p) == []
  {
    if xs != [] {
      FilterNone(xs[1..], p);
    }
  }

  /** Filtering distributes over concatenation. */
  lemma {:induction false} FilterAppend<T(!new)>(xs: seq<T>, ys: seq<T>, p: T -> bool)
    ensures Filter(xs + ys, p) == Filter(xs, p) + Filter(ys, p)
  {
    if xs == [] {
      assert xs + ys == ys;
    } else {
      assert (xs + ys)[1..] == xs[1..] + ys;
      FilterAppend(xs[1..], ys, p);
    }
  }

  /** The set of values occurring in `xs`: what `.distinct(field)` returns,
      whose length is the number of different values. */
  function Distinct<T(!new)>(xs: seq<T>): (r: set<T>)
    ensures forall x :: x in r <==> x in xs
    ensures |r| <= |xs|
    ensures |xs| > 0 ==> |r| >= 1
  {
    if xs == [] then {}
    else
      var rest := Distinct(xs[1..]);
      assert forall x | x in xs :: x == xs[0] || x in xs[1..];
      {xs[0]} + rest
  }

  /** Pairwise different elements. */
  ghost predicate NoDuplicates<T>(xs: seq<T>) {
    forall i, j | 0 <= i < j < |xs| :: xs[i] != xs[j]
  }

  /** Without duplicates, the number of distinct values is the length. */
  lemma {:induction false} DistinctOfNoDuplicates<T(!new)>(xs: seq<T>)
    requires NoDuplicates(xs)
    ensures |Distinct(xs)| == |xs|
  {
    if xs != [] {
      DistinctOfNoDuplicates(xs[1..]);
      assert xs[0] !in xs[1..];
    }
  }
}
